=== FILE: README.md ===
# Flight booking ledger

A Dafny model of the booking and payment ledger of a flight-booking web server, an Express application on MySQL.
The two tables the server writes are modelled as one in-memory store, the class `Store.LedgerStore`:

- `bookings` is a map from the unique ticket id to the booking row. The row holds the internal auto-increment id, owner, itinerary, class, price, status, the cancelled flag and the two reason columns.
- `payments` is the sequence of payment rows in insertion order.

Every route handler that writes these tables is a method on the store or takes the store as an argument. Each one is a single transaction: it returns a success value or a typed `Ledger.Error`. On an error it writes nothing. The store's invariant `Valid()` says:

- internal ids are distinct and below the auto-increment counter;
- every payment names a ticket that has a booking (the foreign key).

Every method preserves it.

The modules:

- `Wrappers`: `Option` and `Result`.
- `Numerals`: decimal numerals, `String(n)`, `padStart` and `parseInt`.
- `Js`: the JavaScript semantics the handlers rely on. Request values are `undefined`, `null`, booleans, numbers or strings. It covers truthiness, `||`, `parseFloat`, `trim` and `toLowerCase`.
- `Identifiers`: the user-id, ticket-id and payment-id generators.
- `Dates`: `split`/`join` and `formatDateToMySQL`.
- `Ledger`: rows, requests and errors, plus the pure row computations of each handler:
  - the upserts;
  - cancellation labels and the refund formula;
  - the amount a payment records;
  - sanitisation.
- `Store`: the stateful handlers of `server.js`.
- `PaymentRoutes`: the handlers of `payments_routes.js`, which are `POST /api/payments/save` and the three read routes. `server.js` neither requires nor mounts this router, so these handlers are modelled as the router defines them, not as routes the running server answers.

Money is an exact `real`. The clock, `Math.random`, the generated ticket id and the guest id are method parameters. The session is passed as a value: the admin flag and the logged-in user's id and role.

## Model

| member | source | states |
|---|---|---|
| Numerals.NatToString | server.js:1690 | `String(n)` is a digit string without leading zeros whose value is `n` |
| Numerals.ParseIntPrefix | server.js:1689 | `parseInt` reads the leading digits, and is NaN (None) exactly when the string does not start with a digit |
| Js.ParseFloatText | server.js:1011 | `parseFloat` of a string gives a number only for a string that starts with a digit, a sign or a point, and always gives one when the string starts with a digit |
| Js.ParseFloat | payments_routes.js:65 | `parseFloat` of a number is that number, of a string is the string read as a numeral, and of anything else is NaN (None) |
| Numerals.PaddedRoundTrip | server.js:1689-1690 | a number padded to any width with `padStart(w, "0")` is all digits, at least `w` long, and `parseInt` reads the number back |
| Numerals.ValueIgnoresLeadingZeros | server.js:1690 | leading zeros added by `padStart` do not change a numeral's value |
| Js.Or | server.js:772 | `a \|\| b` is `a` when truthy, else `b` |
| Js.NumberOrZero | server.js:1011 | `parseFloat(v) \|\| 0` is the parsed number, or 0 when the parse fails |
| Js.ParseFloatOfNumeral | payments_routes.js:65 | `parseFloat` of a whole-number numeral gives that number |
| Js.Trim | server.js:897 | `trim()` gives the input with a blank prefix and a blank suffix cut off; what it gives neither starts nor ends with a blank character, and is empty exactly when the input is blank |
| Js.TrimSlice | server.js:897 | what trimming leaves is a slice `s[i..j]` of the reason with `s[..i]` and `s[j..]` blank |
| Js.TrimBlank | server.js:897 | trimming leaves nothing exactly when the reason is blank, and what it leaves starts and ends with a non-blank character |
| Js.ToLowerAscii | server.js:2406 | lower-casing keeps the length, turns each letter A-Z into its a-z counterpart, leaves every other character, and leaves no A-Z behind |
| Identifiers.RemoveFirstU | server.js:1689 | `replace("U", "")` leaves a string without `U` unchanged, otherwise removes exactly one character, which is the leading `U` when there is one |
| Identifiers.RemoveFirstUAt | server.js:1689 | `replace("U", "")` removes the first `U` wherever it stands: for the first `U` at position k the result is `s[..k] + s[k+1..]` |
| Identifiers.LexMax | server.js:1685 | `ORDER BY user_id DESC LIMIT 1` picks an id of the table that no other id exceeds in code-point order |
| Identifiers.GenerateUserId | server.js:1684-1691 | `generateUserId` gives `U001` for an empty table; otherwise a `U` id of at least four characters whose suffix is one more than that of the greatest id, or `UNaN` when that suffix is not a number |
| Identifiers.GenerateUserIdIncrements | server.js:1688-1690 | when the greatest id is `U` plus the digits of n, the new id is `U` plus n+1 padded to three digits, and its suffix parses back to n+1 |
| Identifiers.GenerateUserIdRepeatsAfterU999 | server.js:1685-1690 | with `U999` and `U1000` in the table, `generateUserId` returns `U1000`, which is already taken |
| Identifiers.NextUserId | server.js:1684-1691 | the corrected generator gives `U001` for an empty table and an id whose suffix is one more than the greatest numeric suffix |
| Identifiers.NextUserIdIsFresh | server.js:1684-1691 | the corrected generator never returns an id already in the table |
| Identifiers.SuccessorId | server.js:356-357 | the id after `lastId` starts with `U`, has at least four characters and a suffix one more than `lastId`'s; it is `UNaN` when `lastId`'s suffix does not start with a digit |
| Identifiers.SuccessorOfDigits | server.js:356-357 | the id after `U` plus the digits of n is `U` plus n+1 padded to three digits, and its suffix parses back to n+1 |
| Identifiers.RegistrationUserId | server.js:349-358 | registration gives `U001` for an empty table; otherwise the newest user's suffix plus one, under `U` and at least three digits, or `UNaN` when that suffix is not a number |
| Identifiers.RegistrationIncrements | server.js:349-358 | when the newest user's id is `U` plus the digits of n, registration gives `U` plus n+1 padded to three digits, and its suffix parses back to n+1 |
| Identifiers.RandomSuffix | payments_routes.js:34 | `Math.floor(Math.random() * 1000)` lies between 0 and 999 |
| Identifiers.PaymentIdRoundTrip | payments_routes.js:33-35 | `PAY-<time>-<n>` reads back to the clock reading and the random number |
| Identifiers.GeneratePaymentId | payments_routes.js:33-35 | a payment id has the form `PAY-<time>-<n>` with the given clock reading and 0 <= n <= 999 |
| Dates.Split | server.js:2173 | `split` yields at least one piece and no piece contains the separator |
| Dates.JoinSplit | server.js:2173 | joining the pieces of a split gives back the string |
| Dates.SplitJoin | server.js:2173 | splitting a join of separator-free pieces gives back the pieces |
| Dates.FormatDateToMySQL | server.js:2171-2175 | `formatDateToMySQL` gives null exactly for an empty date, and otherwise a text ending in `-` followed by the first slash-separated piece |
| Dates.FormatDateReorders | server.js:2171-2175 | a `DD/MM/YYYY` date with slash-free parts becomes `YYYY-MM-DD` |
| Dates.FormatDateWithoutSlashes | server.js:2171-2175 | a non-empty date without a slash prints as `undefined-undefined-<date>` |
| Ledger.ChosenTicket | server.js:755 | the ticket is the body's `ticket_id` when given, else the generated one, and empty only when both are |
| Ledger.PayerId | server.js:1003 | the payer is the session user's id, else the body's `user_id`, else the booking details' `user_id`, else the guest id; never empty when the guest id is not |
| Ledger.IsCancelAdmin | server.js:2406 | a cancellation by internal id counts as an admin's exactly when the session's admin flag is set or the user's role spells `admin` in any mix of ASCII cases |
| Ledger.IdCancelLabel | server.js:2411 | the label is `Cancelled by admin` exactly for an admin, and `Cancelled by user` otherwise |
| Ledger.CountNegative | server.js:1295-1296 | the number of negative payments is at most the row count, and a positive count means some row is negative |
| Ledger.NegativelyPriced | server.js:1304-1305 | the negatively priced tickets are tickets of the table, and none of them has a price that is not negative |
| Store.PaymentEntry | server.js:1112-1115 | the payment row of `processPayment` carries the ticket, the recorded amount, the mode, status `Success`, no string id and the payer as user |
| Ledger.ResolveOwner | server.js:750-765 | the owner is the session user's id when set, else the body's `user_id`; it is absent exactly when both are |
| Ledger.DecimalOf | server.js:778-780 | a number is stored as itself; a missing value cannot be stored in the DECIMAL column |
| Ledger.SaveUpdate | server.js:769-773 | the update overwrites owner, itinerary, class, price and `reason` from the request; the status is Cancelled exactly when the cancelled flag is truthy; the row keeps its id and `cancelReason` |
| Ledger.SaveInsert | server.js:778-781 | a new ticket is inserted Confirmed with cancelled = 0, whatever the body says |
| Ledger.BookTicketUpdate | server.js:1742-1845 | the update of `/api/book-ticket` keeps owner, status and `reason`, and overwrites itinerary, class, price, cancelled flag and `cancelReason` |
| Ledger.BookTicketInsert | server.js:1742-1845 | the insert of `/api/book-ticket` is Confirmed and takes the cancelled flag from the body |
| Ledger.SaveUpdateIdempotent | server.js:769-773 | replaying an upsert update over its own result changes nothing |
| Ledger.CancelledRow | server.js:913-921 | a cancelled row has the flag set, status Cancelled and the label in both reason columns; price, owner, class and itinerary are unchanged |
| Ledger.TicketCancelLabel | server.js:896-897 | the label is the trimmed reason when it is not blank, else `Cancelled by admin` or `cancelled by user` by role; it is never empty |
| Ledger.ReasonOrDefault | server.js:2331-2332 | the label is the body's `cancelReason` when truthy, else `No reason provided` |
| Ledger.ClassMultiplier | server.js:2397-2398 | the multiplier is 1.5 for Business, 2 for First and 1 for any other class |
| Ledger.Refund | server.js:2396-2402 | the refund is price · m · 1.18 + 250, and at least price + 250 for a price that is not negative |
| Ledger.RefundOfBusinessFare | server.js:2396-2402 | a Business fare of 1000 refunds 2020 |
| Ledger.RefundEntry | server.js:2427-2432 | the refund row is `-\|refund\|` for the ticket, with mode Card and never positive |
| Ledger.RefundEntryIsNegative | server.js:2427-2432 | for a fare that is not negative, the refund row carries the whole refund negated, at most -250 |
| Ledger.Max0 | server.js:1013 | `Math.max(0, x)` is the larger of 0 and x |
| Ledger.UserCancelPrice | server.js:1036-1037 | a user cancellation leaves max(0, orig − min(\|amount\|, orig)), which lies between 0 and the original price |
| Ledger.RecordedAmountOf | server.js:1097-1107 | the recorded amount is never negative; for an admin cancellation it is the amount when positive, else 0; for a user cancellation of an existing booking it is the remaining price, never above the original; for a plain payment or a new booking it is the amount clamped at 0 |
| Ledger.RecordedAmount | server.js:1011-1107 | the step-by-step updates of `finalAmount` and `recordedPayment` compute `RecordedAmountOf` |
| Ledger.PaymentBooking | server.js:1053-1081 | the booking inserted for an unknown ticket is Confirmed and not cancelled, with the amount as price and class defaulting to Economy |
| Ledger.AfterPayment | server.js:1121-1145 | a cancellation sets Cancelled and an admin's keeps the price while a user's lowers it to the remaining price; any other payment sets Paid and keeps the price; the cancelled flag and reasons are untouched |
| Ledger.ClampPayment | server.js:1298-1300 | a payment amount is clamped at 0, and a non-negative one is left unchanged |
| Ledger.ClampAmounts | server.js:1298-1300 | `UPDATE payments SET amount = 0 WHERE amount < 0` leaves no negative amount, changes nothing else, and keeps the row count |
| Ledger.CountNegativeBounds | server.js:1295-1296 | the number of negative payments is at most the row count, and 0 exactly when none is negative |
| Ledger.SanitizeIsIdempotent | server.js:1284-1321 | after sanitising, a second run finds no negative payment and changes nothing |
| Ledger.ClampPrices | server.js:1304-1307 | `UPDATE bookings SET price = 0 WHERE price < 0` keeps every ticket and internal id, leaves no negative price and leaves non-negative rows unchanged |
| Ledger.PriceSanitizeIsIdempotent | server.js:1303-1307 | after sanitising, no booking is negatively priced and a second run changes nothing |
| Ledger.NegativelyPricedBounds | server.js:1304-1305 | the number of negatively priced bookings is at most the number of bookings, and 0 exactly when none is negative |
| Store.LedgerStore.constructor | server.js:2483-2515 | the store starts as freshly created tables: no bookings, no payments, and the auto-increment counter at 1 |
| Store.LedgerStore.SaveBooking | server.js:730-789 | `/bookings/save` gives 400 without a flight id or price, then 401 without an owner, and writes nothing on an error; otherwise it updates the ticket's row in place or inserts a confirmed one under the next id, so there is one booking per ticket |
| Store.LedgerStore.BookTicket | server.js:1742-1845 | `/api/book-ticket` gives 401 without an owner; otherwise it updates the ticket's row in place, keeping owner and status, or inserts one |
| Store.LedgerStore.CancelByTicket | server.js:892-945 | cancelling by ticket fails with nothing written when the booking is missing or already cancelled; otherwise the row is cancelled with the label in both reason columns |
| Store.LedgerStore.CancelWithReason | server.js:2297-2356 | `/api/bookings/cancel` gives 400 without a ticket id and 404 for an unknown ticket; otherwise it cancels the row, even one that was cancelled already |
| Store.LedgerStore.CancelById | server.js:2359-2462 | cancelling by internal id gives 404 for an unknown id and 400 for a cancelled booking, with nothing written; otherwise the row is cancelled without a price change, and exactly one refund row of `-\|refund\|` is appended for a user and none for an admin, who is reported a refund of 0 |
| Store.LedgerStore.OpenBooking | server.js:1045-1081 | an unknown ticket gets the booking built from `booking_details`; without details the request fails, and nothing is written on any failure |
| Store.LedgerStore.ProcessPayment | server.js:988-1187 | `processPayment` gives 400 without ticket, amount or mode, and fails without writing when the ticket is unknown and no details are given; it succeeds exactly when ticket, amount and mode are given and the booking exists or can be built; the target booking then gets its after-payment row, and a payment row is appended exactly when the recorded amount is positive |
| Store.LedgerStore.Sanitize | server.js:1284-1321 | an admin's sanitise clamps every negative payment and price to 0 and reports the counts of negative rows before the call; anyone else gets 403 and nothing changes |
| Store.SaveTwice | server.js:730-789 | saving a booking that names its ticket twice leaves one booking for the ticket, and both answers agree on ticket and owner |
| Store.SaveTwiceWithoutTicket | server.js:725-789 | saving a booking without a ticket id twice mints two tickets and inserts two bookings under two new internal ids; either both calls fail or both succeed |
| Store.CancelTwice | server.js:2359-2462 | a second cancellation of the same booking gets "already cancelled", and the two calls together append at most one refund row |
| PaymentRoutes.StoredAmount | payments_routes.js:64-65 | the stored amount is the parsed amount when it is not negative, and 0 when it is negative or does not parse; it is never negative |
| PaymentRoutes.StoredAmountOfNumeral | payments_routes.js:65 | a whole-number amount sent as text is stored as that number |
| PaymentRoutes.SavedPayment | payments_routes.js:66-87 | the inserted row carries the generated payment id, the ticket, the user, the clamped and never negative amount, the payment method and status `completed` |
| PaymentRoutes.SavePayment | payments_routes.js:38-103 | gives 401 with neither a session user nor an admin and 400 without a ticket id or with a null amount; otherwise it appends exactly one `completed` row with a `PAY-` id and the clamped amount, unless the insert breaks the foreign or primary key; nothing is written on any failure |
| PaymentRoutes.PaymentsOf | payments_routes.js:163-171 | a user's payments are exactly the rows recorded under that user id |
| PaymentRoutes.PaymentsOfAppend | payments_routes.js:163-171 | a newly appended row joins the end of its own user's list and no other |
| PaymentRoutes.UserPayments | payments_routes.js:151-189 | a user's payments are listed exactly for an admin or for the session user with that id; anyone else gets 403 |
| PaymentRoutes.FirstPaymentFor | payments_routes.js:196-205 | the lookup finds the first row for the ticket, and finds nothing exactly when no row has that ticket |
| PaymentRoutes.PaymentForTicket | payments_routes.js:192-230 | looking up a payment by ticket gives 404 exactly when no row has that ticket id; otherwise it gives a row of that ticket |
| PaymentRoutes.PaymentForTicketAppend | payments_routes.js:196-212 | appending a row does not change an existing answer, and gives a ticket without payments the new row |
| PaymentRoutes.SavedPaymentIsFound | payments_routes.js:67-87 | once a payment is saved, the lookup by its ticket succeeds and the row appears in its user's list |
| PaymentRoutes.AdminPayments | payments_routes.js:106-148 | all payments are listed exactly for an admin; anyone else gets 403 |

## Left out

- Sessions, login, logout, the remember-me cookie and Express plumbing are left out. The session is a parameter: the admin flag plus the user's id and role.
- `GET` routes of `server.js`, user registration apart from its id computation, schema creation and migrations are left out.
- The ticket-id generator (`server.js:725-727`) and the guest id (`server.js:1003`) read the clock and `Math.random`. Their results are parameters.
- `generatePaymentId` takes the clock reading and the random number in [0, 1) as parameters.
- Only the first registration of a duplicated route is modelled, because Express answers from it: `/bookings/save` at 730 and `/api/book-ticket` at 1742.
- `/bookings/add` (`server.js:792-795`) is not modelled: it fills in a ticket id and hands the request back to the Express router, which is plumbing outside the model.
- Request bodies: only the fields a handler reads are modelled. `username`, `booking_id`, `transaction_id`, `flight_id` on payments, and timestamps are not stored.
- Floating point: money is an exact real. NaN, infinities and IEEE rounding are not modelled. DECIMAL(10,2) rounding and its range limit are not modelled.
- Js.ParseFloatText: reads sign, digits and an optional fraction, with or without integer digits (`.5` reads as 0.5). It does not read leading blanks, exponents or `Infinity`.
- Numerals.ParseIntPrefix: does not read a sign or leading blanks, and reads `0x…` as 0 where `parseInt` without a radix reads it as hexadecimal; user ids have none of these.
- Js.ToLowerAscii: lower-cases only ASCII letters. It is used solely to compare a role with `admin`.
- Ledger.DecimalOf: assumes strict SQL mode. Text that is not a number is refused and is not stored as 0. Text with a number followed by other characters, such as `12abc`, is stored as its leading number, where strict MySQL refuses it.
- Ledger.DecimalOf: a missing price is refused, as under the `price DECIMAL(10, 2) NOT NULL` column of `init_db.js`. The bookings table that `server.js` creates at startup (`server.js:2494`) allows NULL; under that schema `/api/book-ticket` without a price stores NULL and succeeds, while the model answers a storage failure.
- Store.LedgerStore.BookTicket: `cancelled \|\| false` (`server.js:1792`, `server.js:1824`) is stored by its truthiness. A BOOLEAN column under strict MySQL refuses a text flag such as `yes`, which the model stores as true.
- Ticket and user ids are compared by code point, both as map keys (`WHERE ticket_id = ?`) and in `Identifiers.LexLessEq` (`ORDER BY user_id`). MySQL compares them by the column collation, and the default collations ignore case. The two agree on `U`-plus-digits user ids and on generated `TKT-` ticket ids.
- Store.LedgerStore.CancelByTicket: the provided reason is a string or absent. `String(provided).trim()` (`server.js:897`) also turns a number or other value into text, such as a reason of `5` into `"5"`; such reasons are not modelled.
- Concurrency and isolation: each handler is one atomic update. Races between a read and the following write are not modelled.
- The users table and the foreign keys to it are not modelled: the `user_id` of `payments` and of `bookings` (`server.js:2501`, `init_db.js:56`). The database refuses a booking whose owner is not a user, and the model accepts any owner. So where the owner is a guest id (`'GUEST-' + Date.now()`, `server.js:1003`) or a body `user_id` that names no user, `processPayment`, `/bookings/save` and `/api/book-ticket` answer 500 in the source and succeed in the model.
- The model assumes a payments table with every column each INSERT names. `createPaymentsTable` (`server.js:965-985`) is never called, so a database built by `server.js` has the startup payments table (`server.js:2506-2515`). That table has no `user_id`, `flight_id` or `status` column, so the payment INSERT of `processPayment` (`server.js:1112-1115`) fails there whenever the recorded amount is positive.
- The other column constraints of the bookings table are not modelled. `init_db.js:40-57` declares `user_id`, `flight_id`, `flight_name`, `source`, `destination` and `date` NOT NULL, and adds `FOREIGN KEY (flight_id) REFERENCES flights(flight_id)`. Under either schema the `date DATE` column (`init_db.js:46`, `server.js:2491`) refuses, in strict mode, a value that is not a date, such as `15/03/2025`. So a save or payment whose itinerary lacks one of these fields, carries such a date or names an unknown flight answers 500 in the source. `Store.LedgerStore.SaveBooking`, `Store.LedgerStore.BookTicket` and the new-booking path of `Store.LedgerStore.ProcessPayment` accept any itinerary values and succeed.
- Store.LedgerStore.CancelById: takes the booking id as a number. The route passes the path parameter as a string to `WHERE id = ?` (`server.js:2377`), and MySQL converts it: `5abc` finds id 5 and `abc` finds nothing.
- The order of the read routes is the ledger's insertion order, not `ORDER BY payment_date DESC`.
- `LIMIT 1` without `ORDER BY` is modelled as the first row in insertion order.
- The joined columns of the read routes (username, flight name, class) and the ISO date formatting are left out.
- The `else` branch at `server.js:1146-1152` of `processPayment` is unreachable: the booking always exists at that point, because it was found or inserted earlier in the same transaction. It is not modelled separately.
- Store.LedgerStore.ProcessPayment: the answer reports the position of the new payment row in place of the auto-increment `insertId`.

Where the code does something other than its comments or documentation suggest, the model follows the code:

- `/bookings/save` can un-cancel a booking: an update with a falsy `cancelled` sets status Confirmed and cancelled = 0.
- Its insert ignores the body's cancelled flag.
- A cancellation through `processPayment` sets the status to Cancelled but does not set the cancelled flag.
- A user's cancellation through `processPayment` records the remaining price as a positive payment.
- The two files create the payments table with different schemas:
  - `server.js` uses an auto-increment id and `mode`. The table it creates at startup (`server.js:2506-2515`) has no status, user or flight column. A second definition (`server.js:968-979`) would add them, with a default status `Success`, but nothing calls it;
  - `payments_routes.js` uses a string id, `payment_method` and `status`.
  
  Both kinds of row live in the same `payments` sequence. Rows written by `server.js` carry no payment id.

## Findings

| source | as written | input that shows it | evidently intended | confidence | as-written member | corrected member |
|---|---|---|---|---|---|---|
| server.js:1685-1690 | the last id is picked by `ORDER BY user_id DESC`, which compares strings | a users table holding `U999` and `U1000`: `U999` sorts last, so the generator returns `U1000` again | the successor of the greatest numeric suffix, which is never an existing id | not executed | Identifiers.GenerateUserIdRepeatsAfterU999 | Identifiers.NextUserIdIsFresh |

=== FILE: dates.dfy ===
/**
 * `formatDateToMySQL`: rewrites a `DD/MM/YYYY` date as `YYYY-MM-DD` by
 * splitting on `/` and reordering the pieces, with no calendar check.
 */
module Dates {
  import opened Wrappers

  /** `s.split(sep)` for a one-character separator. */
  function Split(s: string, sep: char): (parts: seq<string>)
    ensures |parts| >= 1
    ensures forall i :: 0 <= i < |parts| ==> sep !in parts[i]
  {
    if s == [] then [""]
    else
      var rest := Split(s[1..], sep);
      if s[0] == sep then [""] + rest
      else
        assert forall i :: 1 <= i < |rest| ==> sep !in rest[i];
        [[s[0]] + rest[0]] + rest[1..]
  }

  /** `parts.join(sep)`. */
  function Join(parts: seq<string>, sep: char): string
    requires |parts| >= 1
  {
    if |parts| == 1 then parts[0] else parts[0] + [sep] + Join(parts[1..], sep)
  }

  /** Splitting and joining again gives back the string. */
  lemma {:induction false} JoinSplit(s: string, sep: char)
    ensures Join(Split(s, sep), sep) == s
  {
    if s != [] {
      var rest := Split(s[1..], sep);
      JoinSplit(s[1..], sep);
      if s[0] != sep {
        if |rest| == 1 {
          assert s == [s[0]] + s[1..];
        } else {
          assert rest == [rest[0]] + rest[1..];
          assert Join(rest, sep) == rest[0] + [sep] + Join(rest[1..], sep);
          assert s == [s[0]] + s[1..];
        }
      }
    }
  }

  /** Joining pieces that do not contain the separator, then splitting, gives the pieces back. */
  lemma {:induction false} SplitJoin(parts: seq<string>, sep: char)
    requires |parts| >= 1
    requires forall i :: 0 <= i < |parts| ==> sep !in parts[i]
    ensures Split(Join(parts, sep), sep) == parts
  {
    if |parts| == 1 {
      SplitNoSeparator(parts[0], sep);
    } else {
      SplitJoin(parts[1..], sep);
      SplitPrefix(parts[0], Join(parts[1..], sep), sep);
    }
  }

  lemma {:induction false} SplitNoSeparator(s: string, sep: char)
    requires sep !in s
    ensures Split(s, sep) == [s]
  {
    if s != [] {
      SplitNoSeparator(s[1..], sep);
      assert s == [s[0]] + s[1..];
    }
  }

  lemma {:induction false} SplitPrefix(a: string, b: string, sep: char)
    requires sep !in a
    ensures Split(a + [sep] + b, sep) == [a] + Split(b, sep)
  {
    if a == [] {
      assert (a + [sep] + b)[1..] == b;
    } else {
      assert (a + [sep] + b)[1..] == a[1..] + [sep] + b;
      SplitPrefix(a[1..], b, sep);
      assert a == [a[0]] + a[1..];
    }
  }

  /**
   * `formatDateToMySQL(d)`: null for an empty input; otherwise the pieces
   * between slashes in the order year, month, day. A missing piece is
   * `undefined` in the code and so prints as the word `undefined`; pieces
   * after the third are dropped.
   */
  function FormatDateToMySQL(d: string): (r: Option<string>)
    ensures r.None? <==> d == ""
    ensures r.Some? ==> var day := Split(d, '/')[0];
                        |r.value| > |day| && r.value[|r.value| - |day| - 1..] == "-" + day
  {
    if d == "" then None
    else
      var parts := Split(d, '/');
      var day := parts[0];
      var month := if |parts| > 1 then parts[1] else "undefined";
      var year := if |parts| > 2 then parts[2] else "undefined";
      var text := year + "-" + month + "-" + day;
      assert text == (year + "-" + month) + ("-" + day);
      Some(text)
  }

  /** A well-formed `DD/MM/YYYY` date becomes `YYYY-MM-DD`. */
  lemma FormatDateReorders(day: string, month: string, year: string)
    requires '/' !in day && '/' !in month && '/' !in year
    ensures FormatDateToMySQL(day + "/" + month + "/" + year) == Some(year + "-" + month + "-" + day)
  {
    var parts := [day, month, year];
    assert Join(parts, '/') == day + "/" + month + "/" + year by {
      assert parts[1..] == [month, year] && [month, year][1..] == [year];
      assert Join([month, year], '/') == month + "/" + year;
    }
    SplitJoin(parts, '/');
  }

  /** A date with no slash keeps only its day, the other two pieces print as `undefined`. */
  lemma FormatDateWithoutSlashes(d: string)
    requires d != "" && '/' !in d
    ensures FormatDateToMySQL(d) == Some("undefined-undefined-" + d)
  {
    SplitNoSeparator(d, '/');
    assert "undefined" + "-" + "undefined" + "-" == "undefined-undefined-";
  }
}

=== FILE: identifiers.dfy ===
/**
 * Identifier generation: the sequential user ids `U001, U002, ...` and the
 * `PAY-<time>-<r>` payment ids. The clock and the random number are inputs.
 */
module Identifiers {
  import opened Wrappers
  import opened Numerals

  /** `s.replace("U", "")`: removes the first `U` only. */
  function RemoveFirstU(s: string): (r: string)
    ensures 'U' !in s ==> r == s
    ensures 'U' in s ==> |r| == |s| - 1
    ensures s != [] && s[0] == 'U' ==> r == s[1..]
    ensures s != [] && s[0] != 'U' ==> r != [] && r[0] == s[0]
  {
    if s == [] then ""
    else if s[0] == 'U' then s[1..]
    else
      assert 'U' in s ==> 'U' in s[1..];
      [s[0]] + RemoveFirstU(s[1..])
  }

  /** `replace("U", "")` removes the first `U`, wherever it is. */
  lemma {:induction false} RemoveFirstUAt(s: string, k: nat)
    requires k < |s| && s[k] == 'U' && 'U' !in s[..k]
    ensures RemoveFirstU(s) == s[..k] + s[k + 1..]
  {
    if k > 0 {
      assert s[0] == s[..k][0];
      assert s[1..][..k - 1] == s[1..k];
      assert s[..k] == [s[0]] + s[1..][..k - 1];
      RemoveFirstUAt(s[1..], k - 1);
      assert s[k + 1..] == s[1..][k..];
    }
  }

  /**
   * The id that follows `lastId`: its numeric suffix plus one, padded to
   * three digits. An id whose suffix does not start with a digit makes
   * `parseInt` return NaN, and the code then produces `"UNaN"`.
   */
  function SuccessorId(lastId: string): (id: string)
    ensures Suffix(lastId).None? ==> id == "UNaN"
    ensures Suffix(lastId).Some? ==> |id| >= 4 && id[0] == 'U' && Suffix(id) == Some(Suffix(lastId).value + 1)
  {
    match ParseIntPrefix(RemoveFirstU(lastId))
    case Some(n) =>
      var padded := PadStart(NatToString(n + 1), 3);
      PaddedRoundTrip(n + 1, 3);
      assert RemoveFirstU("U" + padded) == padded;
      "U" + padded
    case None => "UNaN"
  }

  /**
   * The successor of `U` followed by the digits of `n` is `U` followed by
   * `n + 1` padded to three digits, and its suffix reads back as `n + 1`.
   */
  lemma SuccessorOfDigits(digits: string)
    requires digits != [] && AllDigits(digits)
    ensures SuccessorId("U" + digits) == "U" + PadStart(NatToString(DigitsValue(digits) + 1), 3)
    ensures ParseIntPrefix(SuccessorId("U" + digits)[1..]) == Some(DigitsValue(digits) + 1)
  {
    var n := DigitsValue(digits);
    var padded := PadStart(NatToString(n + 1), 3);
    assert RemoveFirstU("U" + digits) == digits;
    DigitPrefixOfDigits(digits);
    assert IsDigit(digits[0]);
    assert ParseIntPrefix(digits) == Some(n);
    assert SuccessorId("U" + digits) == "U" + padded;
    PaddedRoundTrip(n + 1, 3);
    assert ("U" + padded)[1..] == padded;
  }

  /** Code-point order on strings, as `ORDER BY user_id` compares them. */
  predicate LexLessEq(a: string, b: string)
  {
    a == [] || (b != [] && (a[0] < b[0] || (a[0] == b[0] && LexLessEq(a[1..], b[1..]))))
  }

  lemma {:induction false} LexTotal(a: string, b: string)
    ensures LexLessEq(a, b) || LexLessEq(b, a)
  {
    if a != [] && b != [] && a[0] == b[0] {
      LexTotal(a[1..], b[1..]);
    }
  }

  lemma {:induction false} LexTransitive(a: string, b: string, c: string)
    requires LexLessEq(a, b) && LexLessEq(b, c)
    ensures LexLessEq(a, c)
  {
    if a != [] && a[0] == b[0] && b[0] == c[0] {
      LexTransitive(a[1..], b[1..], c[1..]);
    }
  }

  /** `SELECT user_id FROM users ORDER BY user_id DESC LIMIT 1`. */
  function LexMax(ids: seq<string>): (m: string)
    requires |ids| > 0
    ensures m in ids
    ensures forall i :: 0 <= i < |ids| ==> LexLessEq(ids[i], m)
  {
    if |ids| == 1 then
      LexTotal(ids[0], ids[0]);
      ids[0]
    else
      var m := LexMax(ids[1..]);
      assert forall i :: 1 <= i < |ids| ==> ids[i] == ids[1..][i - 1];
      if LexLessEq(ids[0], m) then m
      else
        LexTotal(ids[0], m);
        forall i | 1 <= i < |ids| ensures LexLessEq(ids[i], ids[0]) {
          LexTransitive(ids[i], m, ids[0]);
        }
        LexTotal(ids[0], ids[0]);
        ids[0]
  }

  /**
   * `generateUserId` as written: `U001` for an empty table, otherwise the
   * successor of the lexicographically greatest id.
   */
  function GenerateUserId(ids: seq<string>): (id: string)
    ensures ids == [] ==> id == "U001"
    ensures |id| >= 4 && id[0] == 'U'
    ensures ids != [] && Suffix(LexMax(ids)).Some? ==> Suffix(id) == Some(Suffix(LexMax(ids)).value + 1)
    ensures ids != [] && Suffix(LexMax(ids)).None? ==> id == "UNaN"
  {
    if ids == [] then
      OneIsPadded();
      "U001"
    else SuccessorId(LexMax(ids))
  }

  /**
   * When the greatest id is `U` followed by the digits of `n`, the next id is
   * `U` followed by `n + 1` padded to three digits, and reading its suffix
   * back gives `n + 1`.
   */
  lemma GenerateUserIdIncrements(ids: seq<string>, digits: string)
    requires |ids| > 0 && LexMax(ids) == "U" + digits
    requires digits != [] && AllDigits(digits)
    ensures GenerateUserId(ids) == "U" + PadStart(NatToString(DigitsValue(digits) + 1), 3)
    ensures ParseIntPrefix(GenerateUserId(ids)[1..]) == Some(DigitsValue(digits) + 1)
  {
    SuccessorOfDigits(digits);
  }

  /**
   * The lexicographic maximum breaks down past `U999`: with `U999` and `U1000`
   * in the table, `U999` is the greatest id, so the generator hands out
   * `U1000` a second time.
   */
  lemma GenerateUserIdRepeatsAfterU999()
    ensures var ids := ["U999", "U1000"]; GenerateUserId(ids) == "U1000" && GenerateUserId(ids) in ids
  {
    var ids := ["U999", "U1000"];
    U999IsLexMax();
    GenerateUserIdIncrements(ids, "999");
    ValueOf999();
    NumeralOf1000();
  }

  lemma U999IsLexMax()
    ensures LexMax(["U999", "U1000"]) == "U999"
  {
    var ids := ["U999", "U1000"];
    assert ids[1..] == ["U1000"];
    assert !LexLessEq("U999", "U1000") by {
      assert "U999"[1..] == "999" && "U1000"[1..] == "1000";
      assert !LexLessEq("999", "1000");
    }
  }

  lemma ValueOf999()
    ensures AllDigits("999") && DigitsValue("999") == 999
  {
    assert "999"[..2] == "99" && "99"[..1] == "9" && "9"[..0] == "";
    assert DigitsValue("9") == 9;
    assert DigitsValue("99") == 99;
  }

  lemma NumeralOf1000()
    ensures NatToString(1000) == "1000" && PadStart(NatToString(1000), 3) == "1000"
  {
    assert NatToString(1) == "1";
    assert NatToString(10) == "10";
    assert NatToString(100) == "100";
  }

  lemma OneIsPadded()
    ensures PadStart(NatToString(1), 3) == "001"
  {
    assert NatToString(1) == "1";
    assert Zeros(2) == "00" by {
      assert Zeros(1) == "0";
    }
  }

  /** The numeric suffix of a user id, as the generator reads it. */
  function Suffix(id: string): Option<nat>
  {
    ParseIntPrefix(RemoveFirstU(id))
  }

  /** The greatest numeric suffix among the ids, 0 when none has one. */
  function MaxSuffix(ids: seq<string>): (m: nat)
    ensures forall i :: 0 <= i < |ids| && Suffix(ids[i]).Some? ==> Suffix(ids[i]).value <= m
  {
    if ids == [] then 0
    else
      var rest := MaxSuffix(ids[1..]);
      assert forall i :: 1 <= i < |ids| ==> ids[i] == ids[1..][i - 1];
      match Suffix(ids[0])
      case Some(n) => if n > rest then n else rest
      case None => rest
  }

  /**
   * The generator as intended: the successor of the greatest NUMERIC suffix.
   * It agrees with `GenerateUserId` on an empty table.
   */
  function NextUserId(ids: seq<string>): (id: string)
    ensures ids == [] ==> id == "U001"
    ensures Suffix(id) == Some(MaxSuffix(ids) + 1)
  {
    var digits := PadStart(NatToString(MaxSuffix(ids) + 1), 3);
    PaddedRoundTrip(MaxSuffix(ids) + 1, 3);
    assert RemoveFirstU("U" + digits) == digits;
    OneIsPadded();
    "U" + digits
  }

  /** The intended generator never repeats an id already in the table. */
  lemma NextUserIdIsFresh(ids: seq<string>)
    ensures NextUserId(ids) !in ids
  {
    var id := NextUserId(ids);
    forall i | 0 <= i < |ids| ensures ids[i] != id {
      assert Suffix(ids[i]) != Suffix(id);
    }
  }

  /**
   * The variant run at registration: the successor of the most recently
   * created user's id (`ORDER BY created_at DESC`), `U001` for none.
   */
  function RegistrationUserId(idsByCreation: seq<string>): (id: string)
    ensures idsByCreation == [] ==> id == "U001"
    ensures idsByCreation != [] && Suffix(idsByCreation[|idsByCreation| - 1]).Some? ==>
              && |id| >= 4 && id[0] == 'U'
              && Suffix(id) == Some(Suffix(idsByCreation[|idsByCreation| - 1]).value + 1)
    ensures idsByCreation != [] && Suffix(idsByCreation[|idsByCreation| - 1]).None? ==> id == "UNaN"
  {
    if idsByCreation == [] then "U001" else SuccessorId(idsByCreation[|idsByCreation| - 1])
  }

  /**
   * When the newest user's id is `U` followed by the digits of `n`,
   * registration hands out `U` followed by `n + 1` padded to three digits.
   */
  lemma RegistrationIncrements(idsByCreation: seq<string>, digits: string)
    requires idsByCreation != [] && idsByCreation[|idsByCreation| - 1] == "U" + digits
    requires digits != [] && AllDigits(digits)
    ensures RegistrationUserId(idsByCreation) == "U" + PadStart(NatToString(DigitsValue(digits) + 1), 3)
    ensures ParseIntPrefix(RegistrationUserId(idsByCreation)[1..]) == Some(DigitsValue(digits) + 1)
  {
    SuccessorOfDigits(digits);
  }

  /** `Math.floor(Math.random() * 1000)` for a random number in [0, 1). */
  function RandomSuffix(random: real): (r: nat)
    requires 0.0 <= random < 1.0
    ensures r <= 999
  {
    (random * 1000.0).Floor
  }

  function PaymentIdOf(time: nat, r: nat): string
  {
    "PAY-" + NatToString(time) + "-" + NatToString(r)
  }

  /** Reads `PAY-<digits>-<digits>` back into its two numbers. */
  function ParsePaymentId(s: string): Option<(nat, nat)>
  {
    if |s| < 4 || s[..4] != "PAY-" then None
    else
      var rest := s[4..];
      var time := DigitPrefix(rest);
      var tail := rest[|time|..];
      if time == [] || tail == [] || tail[0] != '-' || tail[1..] == [] || !AllDigits(tail[1..]) then None
      else Some((DigitsValue(time), DigitsValue(tail[1..])))
  }

  lemma PaymentIdRoundTrip(time: nat, r: nat)
    ensures ParsePaymentId(PaymentIdOf(time, r)) == Some((time, r))
  {
    var t := NatToString(time);
    var k := NatToString(r);
    var s := PaymentIdOf(time, r);
    assert s[..4] == "PAY-";
    var rest := s[4..];
    assert rest == t + "-" + k;
    assert DigitPrefix(rest) == t by {
      assert rest == t + ("-" + k);
      DigitPrefixPastDigits(t, "-" + k);
    }
    var tail := rest[|t|..];
    assert tail == "-" + k;
    assert tail[0] == '-' && tail[1..] == k;
    assert AllDigits(k) && k != [];
    assert DigitsValue(t) == time && DigitsValue(k) == r;
  }

  lemma {:induction false} DigitPrefixPastDigits(d: string, rest: string)
    requires AllDigits(d) && rest != [] && !IsDigit(rest[0])
    ensures DigitPrefix(d + rest) == d
  {
    if d != [] {
      assert (d + rest)[1..] == d[1..] + rest;
      DigitPrefixPastDigits(d[1..], rest);
    }
  }

  /**
   * `generatePaymentId`: `PAY-` followed by the clock reading and a random
   * number between 0 and 999.
   */
  function GeneratePaymentId(time: nat, random: real): (id: string)
    requires 0.0 <= random < 1.0
    ensures ParsePaymentId(id).Some?
    ensures ParsePaymentId(id).value.0 == time && ParsePaymentId(id).value.1 <= 999
  {
    PaymentIdRoundTrip(time, RandomSuffix(random));
    PaymentIdOf(time, RandomSuffix(random))
  }
}

=== FILE: js.dfy ===
/**
 * The few JavaScript value semantics the request handlers depend on:
 * truthiness, `a || b`, `parseFloat`, `String.prototype.trim` and
 * `toLowerCase`.
 */
module Js {
  import opened Wrappers
  import opened Numerals

  /**
   * A value taken from a parsed JSON request body. `undefined` stands for a
   * field the body does not have. NaN is not modelled.
   */
  datatype Value = Undefined | Null | Bool(b: bool) | Num(n: real) | Text(s: string)

  /** JavaScript truthiness (`if (v)`, `!v`). */
  predicate Truthy(v: Value)
  {
    match v
    case Undefined => false
    case Null => false
    case Bool(b) => b
    case Num(n) => n != 0.0
    case Text(s) => s != ""
  }

  /** `a || b`. */
  function Or(a: Value, b: Value): (r: Value)
    ensures Truthy(a) ==> r == a
    ensures !Truthy(a) ==> r == b
  {
    if Truthy(a) then a else b
  }

  /** `v == null`, which holds of both `null` and `undefined`. */
  predicate IsNullish(v: Value) { v.Undefined? || v.Null? }

  function Pow10(k: nat): (p: nat)
    ensures p >= 1
  {
    if k == 0 then 1 else 10 * Pow10(k - 1)
  }

  /**
   * `parseFloat` on a string: an optional sign, integer digits and an
   * optional fraction, read as a prefix; None where JavaScript gives NaN.
   */
  function ParseFloatText(s: string): (r: Option<real>)
    ensures r.Some? ==> s != [] && (IsDigit(s[0]) || s[0] in "+-.")
    ensures s != [] && IsDigit(s[0]) ==> r.Some?
  {
    var signed := |s| > 0 && (s[0] == '-' || s[0] == '+');
    var body := if signed then s[1..] else s;
    var whole := DigitPrefix(body);
    var rest := body[|whole|..];
    var fraction := if |rest| > 0 && rest[0] == '.' then DigitPrefix(rest[1..]) else "";
    if whole == "" && fraction == "" then None
    else
      var magnitude := DigitsValue(whole) as real + DigitsValue(fraction) as real / Pow10(|fraction|) as real;
      Some(if signed && s[0] == '-' then -magnitude else magnitude)
  }

  /** `parseFloat(v)`: numbers are themselves, strings are read, the rest is NaN. */
  function ParseFloat(v: Value): (r: Option<real>)
    ensures v.Num? ==> r == Some(v.n)
    ensures v.Text? ==> r == ParseFloatText(v.s)
    ensures !v.Num? && !v.Text? ==> r.None?
  {
    match v
    case Num(n) => Some(n)
    case Text(s) => ParseFloatText(s)
    case _ => None
  }

  /** `parseFloat(v) || 0`: a failed parse becomes 0. */
  function NumberOrZero(v: Value): (r: real)
    ensures ParseFloat(v).Some? ==> r == ParseFloat(v).value
    ensures ParseFloat(v).None? ==> r == 0.0
  {
    match ParseFloat(v)
    case Some(x) => x
    case None => 0.0
  }

  /** A decimal numeral written by `String(n)` reads back as `n`. */
  lemma ParseFloatOfNumeral(n: nat)
    ensures ParseFloat(Text(NatToString(n))) == Some(n as real)
  {
    var s := NatToString(n);
    DigitPrefixOfDigits(s);
    assert s[0] != '-' && s[0] != '+';
    assert DigitPrefix(s)[|s|..] == [];
    assert DigitsValue("") == 0 && Pow10(0) == 1;
    var magnitude := DigitsValue(s) as real + DigitsValue("") as real / Pow10(0) as real;
    assert magnitude == n as real;
    assert ParseFloatText(s) == Some(magnitude);
  }

  /** The characters `String.prototype.trim` removes. */
  predicate IsSpace(c: char)
  {
    var k := c as int;
    (9 <= k <= 13) || k == 32 || k == 0xA0 || k == 0x1680 || (0x2000 <= k <= 0x200A)
    || k == 0x2028 || k == 0x2029 || k == 0x202F || k == 0x205F || k == 0x3000 || k == 0xFEFF
  }

  predicate Blank(s: string) { forall i :: 0 <= i < |s| ==> IsSpace(s[i]) }

  function TrimStart(s: string): (r: string)
    ensures |r| <= |s| && r == s[|s| - |r|..]
    ensures Blank(s[..|s| - |r|])
    ensures r == [] || !IsSpace(r[0])
  {
    if s != [] && IsSpace(s[0]) then
      var r := TrimStart(s[1..]);
      TrimStartStep(s, r);
      r
    else s
  }

  /** Dropping one more blank character in front keeps `TrimStart`'s contract. */
  lemma TrimStartStep(s: string, r: string)
    requires s != [] && IsSpace(s[0])
    requires |r| <= |s| - 1 && r == s[1..][|s| - 1 - |r|..] && Blank(s[1..][..|s| - 1 - |r|])
    ensures r == s[|s| - |r|..] && Blank(s[..|s| - |r|])
  {
    var k := |s| - |r|;
    assert s[1..][k - 1..] == s[k..];
    forall i | 0 <= i < k
      ensures IsSpace(s[..k][i])
    {
      if i > 0 {
        assert s[..k][i] == s[1..][..k - 1][i - 1];
      }
    }
  }

  function TrimEnd(s: string): (r: string)
    ensures r <= s
    ensures Blank(s[|r|..])
    ensures r == [] || !IsSpace(r[|r| - 1])
  {
    if s != [] && IsSpace(s[|s| - 1]) then TrimEnd(s[..|s| - 1]) else s
  }

  /**
   * `s.trim()`: the slice of `s` left once the blank characters at either
   * end are gone. It is empty exactly when `s` is blank.
   */
  function Trim(s: string): (r: string)
    ensures |r| <= |s|
    ensures r == [] <==> Blank(s)
    ensures r != [] ==> !IsSpace(r[0]) && !IsSpace(r[|r| - 1])
    ensures IsTrimmedSlice(s, r)
  {
    TrimBlank(s);
    TrimSlice(s);
    TrimEnd(TrimStart(s))
  }

  /** `r` is `s` with a blank prefix and a blank suffix cut off. */
  predicate IsTrimmedSlice(s: string, r: string)
  {
    exists i, j :: 0 <= i <= j <= |s| && r == s[i..j] && Blank(s[..i]) && Blank(s[j..])
  }

  /** What trimming leaves is the input with a blank prefix and a blank suffix cut off. */
  lemma TrimSlice(s: string)
    ensures IsTrimmedSlice(s, TrimEnd(TrimStart(s)))
  {
    var t := TrimStart(s);
    SliceOfSlice(s, t, TrimEnd(t));
  }

  /** A blank-ended prefix of a blank-started suffix of `s` is a slice of `s` with blank ends. */
  lemma SliceOfSlice(s: string, t: string, r: string)
    requires |t| <= |s| && t == s[|s| - |t|..] && Blank(s[..|s| - |t|])
    requires r <= t && Blank(t[|r|..])
    ensures IsTrimmedSlice(s, r)
  {
    var i := |s| - |t|;
    var j := i + |r|;
    assert r == t[..|r|];
    assert s[i..][..j - i] == s[i..j] && s[i..][j - i..] == s[j..];
    assert r == s[i..j] && Blank(s[j..]);
  }

  lemma BlankConcat(a: string, b: string)
    requires Blank(a) && Blank(b)
    ensures Blank(a + b)
  {
    forall i | 0 <= i < |a + b|
      ensures IsSpace((a + b)[i])
    {
      if i < |a| {
        assert (a + b)[i] == a[i];
      } else {
        assert (a + b)[i] == b[i - |a|];
      }
    }
  }

  lemma SplitAt(s: string, k: nat)
    requires k <= |s|
    ensures s == s[..k] + s[k..]
  {
  }

  lemma BlankSuffix(s: string, k: nat)
    requires Blank(s) && k <= |s|
    ensures Blank(s[k..])
  {
    forall i | 0 <= i < |s| - k
      ensures IsSpace(s[k..][i])
    {
      assert s[k..][i] == s[k + i];
    }
  }

  /**
   * Trimming leaves nothing exactly when every character is blank, and what
   * it leaves starts and ends with a character that is not blank.
   */
  lemma TrimBlank(s: string)
    ensures |TrimEnd(TrimStart(s))| <= |s|
    ensures TrimEnd(TrimStart(s)) == [] <==> Blank(s)
    ensures var r := TrimEnd(TrimStart(s)); r != [] ==> !IsSpace(r[0]) && !IsSpace(r[|r| - 1])
  {
    var t := TrimStart(s);
    var r := TrimEnd(t);
    var k := |s| - |t|;
    if r != [] {
      assert r[0] == t[0];
    }
    if r == [] {
      assert t[|r|..] == t;
      SplitAt(s, k);
      BlankConcat(s[..k], t);
    }
    if Blank(s) {
      BlankSuffix(s, k);
      assert t == [];
    }
  }

  /** `toLowerCase` on the ASCII letters. */
  function ToLowerAscii(s: string): (r: string)
    ensures |r| == |s|
    ensures forall i :: 0 <= i < |s| ==> !('A' <= r[i] <= 'Z')
    ensures forall i :: 0 <= i < |s| && 'A' <= s[i] <= 'Z' ==> r[i] == (s[i] as int + 32) as char
    ensures forall i :: 0 <= i < |s| && !('A' <= s[i] <= 'Z') ==> r[i] == s[i]
  {
    seq(|s|, i requires 0 <= i < |s| => LowerChar(s[i]))
  }

  function LowerChar(c: char): (d: char)
    ensures !('A' <= d <= 'Z')
    ensures 'A' <= c <= 'Z' ==> d == (c as int + 32) as char
    ensures !('A' <= c <= 'Z') ==> d == c
  {
    if 'A' <= c <= 'Z' then (c as int + 32) as char else c
  }

}

=== FILE: ledger.dfy ===
/**
 * The rows of the `bookings` and `payments` tables, the caller's session,
 * and the pure business rules the request handlers apply to them: owner
 * resolution, the rows an upsert writes, cancellation labels, the refund
 * formula, the amounts a payment records, and sanitisation.
 */
module Ledger {
  import opened Wrappers
  import opened Js

  datatype Status = Confirmed | Paid | Cancelled

  /** The itinerary columns, stored as the request sent them. */
  datatype Trip = Trip(flightId: Value, flightName: Value, source: Value,
                       destination: Value, date: Value, duration: Value)

  /**
   * A row of `bookings`, keyed by its ticket id in the store. `id` is the
   * auto-increment primary key; `reason` and `cancelReason` are the two
   * redundant cancellation-reason columns (Null is SQL NULL).
   */
  datatype Booking = Booking(id: nat, owner: string, trip: Trip, classType: Value,
                             price: real, status: Status, cancelled: bool,
                             reason: Value, cancelReason: Value)

  /** A row of `payments`; `paymentId` is None where the table numbers rows itself. */
  datatype Payment = Payment(paymentId: Option<string>, ticketId: string, amount: real,
                             mode: Value, status: string, userId: Option<string>)

  /**
   * What a request's session holds: the admin flag, and the logged-in user
   * with the role column read at login.
   */
  datatype SessionUser = SessionUser(userId: string, role: string)
  datatype Session = Session(admin: bool, user: Option<SessionUser>)

  datatype Error =
    | MissingFields        // 400
    | Unauthenticated      // 401
    | Forbidden            // 403
    | NotFound             // 404
    | AlreadyCancelled     // 400
    | NotFoundOrCancelled  // answered with success: false and status 200
    | BookingRequired      // thrown inside the payment transaction: 500
    | StorageFailure       // a value the database refuses: 500

  /** `req.session.user.user_id`, or "" (falsy) when there is none. */
  function SessionUserId(s: Session): string
  {
    if s.user.Some? then s.user.value.userId else ""
  }

  /**
   * The owner of a booking being saved: the session's user id when it is
   * set, else the user id from the body; None when neither is.
   */
  function ResolveOwner(s: Session, bodyUserId: string): (owner: Option<string>)
    ensures owner.None? <==> SessionUserId(s) == "" && bodyUserId == ""
    ensures owner.Some? ==> owner.value != ""
    ensures SessionUserId(s) != "" ==> owner == Some(SessionUserId(s))
    ensures SessionUserId(s) == "" && bodyUserId != "" ==> owner == Some(bodyUserId)
  {
    if SessionUserId(s) != "" then Some(SessionUserId(s))
    else if bodyUserId != "" then Some(bodyUserId)
    else None
  }

  /** `ticket_id || generateTicketId()`, the generated id being an input. */
  function ChosenTicket(requested: string, generated: string): (t: string)
    ensures t == requested || t == generated
    ensures requested != "" ==> t == requested
    ensures t == "" <==> requested == "" && generated == ""
  {
    if requested != "" then requested else generated
  }

  /**
   * The number a DECIMAL column stores for a request value; None when the
   * database refuses it (NULL in a NOT NULL column, text that is no number).
   */
  function DecimalOf(v: Value): (d: Option<real>)
    ensures v.Num? ==> d == Some(v.n)
    ensures IsNullish(v) ==> d.None?
  {
    match v
    case Num(n) => Some(n)
    case Bool(b) => Some(if b then 1.0 else 0.0)
    case Text(s) => ParseFloatText(s)
    case _ => None
  }

  /** `v || null`. */
  function OrNull(v: Value): Value { Or(v, Null) }

  // ---------------------------------------------------------------------------
  // Booking upserts

  /** The fields both booking-save routes read from the body. */
  datatype BookingRequest = BookingRequest(userId: string, ticketId: string, trip: Trip,
                                           classType: Value, price: Value,
                                           cancelled: Value, cancelReason: Value)

  /**
   * The row `/bookings/save` leaves when the ticket exists: every request
   * field overwrites its column, the owner becomes the resolved owner, and
   * the status follows the cancelled flag. The row's key and its
   * `cancelReason` column are not touched.
   */
  function SaveUpdate(b: Booking, owner: string, req: BookingRequest, price: real): (r: Booking)
    ensures r.id == b.id && r.cancelReason == b.cancelReason
    ensures r.owner == owner && r.trip == req.trip && r.classType == req.classType && r.price == price
    ensures r.cancelled == Truthy(req.cancelled)
    ensures r.status == Cancelled <==> r.cancelled
    ensures r.status != Paid
    ensures r.reason == (if Truthy(req.cancelReason) then req.cancelReason else Null)
  {
    var cancelled := Truthy(req.cancelled);
    b.(owner := owner, trip := req.trip, classType := req.classType, price := price,
       cancelled := cancelled, status := if cancelled then Cancelled else Confirmed,
       reason := OrNull(req.cancelReason))
  }

  /** The row `/bookings/save` inserts for a new ticket: confirmed and not cancelled, whatever the body says. */
  function SaveInsert(id: nat, owner: string, req: BookingRequest, price: real): (r: Booking)
    ensures r.id == id && r.owner == owner && r.price == price
    ensures r.status == Confirmed && !r.cancelled && r.cancelReason == Null
    ensures r.reason == (if Truthy(req.cancelReason) then req.cancelReason else Null)
  {
    Booking(id, owner, req.trip, req.classType, price, Confirmed, false, OrNull(req.cancelReason), Null)
  }

  /**
   * The row `/api/book-ticket` leaves when the ticket exists: itinerary,
   * class, price, cancelled flag and `cancelReason` are overwritten; owner,
   * status and `reason` are kept.
   */
  function BookTicketUpdate(b: Booking, req: BookingRequest, price: real): (r: Booking)
    ensures r.id == b.id && r.owner == b.owner && r.status == b.status && r.reason == b.reason
    ensures r.trip == req.trip && r.classType == req.classType && r.price == price
    ensures r.cancelled == Truthy(req.cancelled)
    ensures r.cancelReason == (if Truthy(req.cancelReason) then req.cancelReason else Null)
  {
    b.(trip := req.trip, classType := req.classType, price := price,
       cancelled := Truthy(req.cancelled), cancelReason := OrNull(req.cancelReason))
  }

  /** The row `/api/book-ticket` inserts: status Confirmed, the cancelled flag as sent. */
  function BookTicketInsert(id: nat, owner: string, req: BookingRequest, price: real): (r: Booking)
    ensures r.id == id && r.owner == owner && r.price == price && r.reason == Null
    ensures r.status == Confirmed && r.cancelled == Truthy(req.cancelled)
    ensures r.cancelReason == (if Truthy(req.cancelReason) then req.cancelReason else Null)
  {
    Booking(id, owner, req.trip, req.classType, price, Confirmed, Truthy(req.cancelled), Null,
            OrNull(req.cancelReason))
  }

  /** Saving the same request twice over an existing row writes what the first save wrote. */
  lemma SaveUpdateIdempotent(b: Booking, owner: string, req: BookingRequest, price: real)
    ensures SaveUpdate(SaveUpdate(b, owner, req, price), owner, req, price) == SaveUpdate(b, owner, req, price)
    ensures BookTicketUpdate(BookTicketUpdate(b, req, price), req, price) == BookTicketUpdate(b, req, price)
  {
  }

  // ---------------------------------------------------------------------------
  // Cancellation

  /**
   * A cancelled row: flag set, status Cancelled, the label in both reason
   * columns; price, owner, class and itinerary untouched.
   */
  function CancelledRow(b: Booking, text: Value): (r: Booking)
    ensures r.cancelled && r.status == Cancelled
    ensures r.reason == text && r.cancelReason == text
    ensures r.id == b.id && r.owner == b.owner && r.trip == b.trip
    ensures r.classType == b.classType && r.price == b.price
  {
    b.(cancelled := true, status := Cancelled, reason := text, cancelReason := text)
  }

  /**
   * The label of a cancellation by ticket: the supplied reason trimmed when
   * it is not blank, else a default naming who cancelled.
   */
  function TicketCancelLabel(provided: Option<string>, admin: bool): (text: string)
    ensures text != ""
    ensures provided.Some? && !Blank(provided.value) ==> text == Trim(provided.value)
    ensures provided.None? || Blank(provided.value) ==>
              text == (if admin then "Cancelled by admin" else "cancelled by user")
  {
    if provided.Some? && provided.value != "" && Trim(provided.value) != "" then Trim(provided.value)
    else if admin then "Cancelled by admin"
    else "cancelled by user"
  }

  /** `cancelReason || "No reason provided"`, the label of `/api/bookings/cancel`. */
  function ReasonOrDefault(cancelReason: Value): (text: Value)
    ensures Truthy(text)
    ensures Truthy(cancelReason) ==> text == cancelReason
    ensures !Truthy(cancelReason) ==> text == Text("No reason provided")
  {
    Or(cancelReason, Text("No reason provided"))
  }

  /**
   * Who counts as an admin when cancelling by internal id: the session's
   * admin flag, or a logged-in user whose role is `admin` in any ASCII case.
   */
  function IsCancelAdmin(s: Session): (r: bool)
    ensures r <==> s.admin || (s.user.Some? && IsAdminInAnyCase(s.user.value.role))
  {
    if s.user.Some? then
      LowerIsAdmin(s.user.value.role);
      s.admin || ToLowerAscii(s.user.value.role) == "admin"
    else s.admin
  }

  /** `role` spells `admin` with each letter in either ASCII case. */
  predicate IsAdminInAnyCase(role: string)
  {
    |role| == 5 && forall i :: 0 <= i < 5 ==> role[i] == "admin"[i] || role[i] == "ADMIN"[i]
  }

  /** Lower-casing gives `admin` exactly for the spellings of `admin` in any ASCII case. */
  lemma LowerIsAdmin(role: string)
    ensures ToLowerAscii(role) == "admin" <==> IsAdminInAnyCase(role)
  {
    var low := ToLowerAscii(role);
    if IsAdminInAnyCase(role) {
      forall i | 0 <= i < 5 ensures low[i] == "admin"[i] {
        assert role[i] == "admin"[i] || role[i] == "ADMIN"[i];
      }
    }
    if low == "admin" {
      forall i | 0 <= i < 5 ensures role[i] == "admin"[i] || role[i] == "ADMIN"[i] {
        assert low[i] == "admin"[i];
      }
    }
  }

  /** The label a cancellation by internal id stores: the admin's or the user's, never empty. */
  function IdCancelLabel(admin: bool): (text: string)
    ensures text != [] && (text == "Cancelled by admin" <==> admin)
    ensures !admin ==> text == "Cancelled by user"
  {
    if admin then "Cancelled by admin" else "Cancelled by user"
  }

  /** 1.5 for Business, 2 for First, 1 for every other class. */
  function ClassMultiplier(classType: Value): (m: real)
    ensures classType == Text("Business") ==> m == 1.5
    ensures classType == Text("First") ==> m == 2.0
    ensures classType != Text("Business") && classType != Text("First") ==> m == 1.0
  {
    if classType == Text("Business") then 1.5
    else if classType == Text("First") then 2.0
    else 1.0
  }

  /**
   * The refund of a user cancellation: the class-scaled fare, 18% GST on
   * it, and a fixed 250 fee.
   */
  function Refund(price: real, classType: Value): (r: real)
    ensures r == price * ClassMultiplier(classType) * 1.18 + 250.0
    ensures price >= 0.0 ==> r >= price + 250.0
  {
    var subtotal := price * ClassMultiplier(classType);
    var gst := subtotal * 0.18;
    var fees := 250.0;
    assert price >= 0.0 ==> subtotal >= price;
    subtotal + gst + fees
  }

  lemma RefundOfBusinessFare()
    ensures Refund(1000.0, Text("Business")) == 2020.0
  {
  }

  function Abs(x: real): real { if x < 0.0 then -x else x }

  /** The ledger entry of a user cancellation: `-|refund|`, mode Card, status Success. */
  function RefundEntry(ticketId: string, refund: real): (p: Payment)
    ensures p.ticketId == ticketId && p.amount <= 0.0 && p.mode == Text("Card")
    ensures refund >= 0.0 ==> p.amount == -refund
  {
    Payment(None, ticketId, -Abs(refund), Text("Card"), "Success", None)
  }

  /** For a fare that is not negative, the refund entry is negative and carries the whole refund. */
  lemma RefundEntryIsNegative(ticketId: string, b: Booking)
    requires b.price >= 0.0
    ensures RefundEntry(ticketId, Refund(b.price, b.classType)).amount
              == -Refund(b.price, b.classType) <= -250.0
  {
  }

  // ---------------------------------------------------------------------------
  // Payment processing

  /** The optional `booking_details` object of a payment request. */
  datatype BookingDetails = BookingDetails(cancelled: Value, userId: string, flightName: Value,
                                           source: Value, destination: Value, date: Value,
                                           duration: Value, classType: Value)

  datatype PaymentRequest = PaymentRequest(ticketId: string, amount: Value, mode: Value,
                                           userId: string, flightId: Value,
                                           details: Option<BookingDetails>)

  /** `booking_details?.cancelled`. */
  predicate IsCancellation(req: PaymentRequest)
  {
    req.details.Some? && Truthy(req.details.value.cancelled)
  }

  /** The user a payment is booked to: session, body, details, else the guest id. */
  function PayerId(s: Session, req: PaymentRequest, guestId: string): (id: string)
    ensures SessionUserId(s) != "" ==> id == SessionUserId(s)
    ensures SessionUserId(s) == "" && req.userId != "" ==> id == req.userId
    ensures SessionUserId(s) == "" && req.userId == "" && req.details.Some? && req.details.value.userId != "" ==>
              id == req.details.value.userId
    ensures id == guestId <== SessionUserId(s) == "" && req.userId == ""
                              && (req.details.None? || req.details.value.userId == "")
    ensures guestId != "" ==> id != ""
  {
    if SessionUserId(s) != "" then SessionUserId(s)
    else if req.userId != "" then req.userId
    else if req.details.Some? && req.details.value.userId != "" then req.details.value.userId
    else guestId
  }

  /** `Math.max(0, x)`. */
  function Max0(x: real): (r: real)
    ensures r >= 0.0 && r >= x && (r == x || r == 0.0)
  {
    if x > 0.0 then x else 0.0
  }

  /**
   * The price left after a user cancellation deducts `|amount|` from the
   * original price: never negative and never above the original.
   */
  function UserCancelPrice(original: real, amount: real): (r: real)
    requires original >= 0.0
    ensures 0.0 <= r <= original
    ensures r == (if Abs(amount) >= original then 0.0 else original - Abs(amount))
  {
    var deduction := if Abs(amount) < original then Abs(amount) else original;
    Max0(original - deduction)
  }

  /**
   * The amount a payment request records, stated declaratively: the
   * remaining price for a user cancellation of an existing booking,
   * otherwise the amount itself when positive and 0 when not.
   */
  function RecordedAmountOf(admin: bool, cancellation: bool, amount: real,
                            existingPrice: Option<real>): (r: real)
    ensures r >= 0.0
    ensures cancellation && admin ==> r == (if amount > 0.0 then amount else 0.0)
    ensures !cancellation ==> r == Max0(amount)
    ensures cancellation && !admin && existingPrice.Some? ==>
              r == UserCancelPrice(Max0(existingPrice.value), amount) && r <= Max0(existingPrice.value)
    ensures cancellation && !admin && existingPrice.None? ==> r == Max0(amount)
  {
    if cancellation && !admin && existingPrice.Some? then UserCancelPrice(Max0(existingPrice.value), amount)
    else Max0(amount)
  }

  /**
   * The running amounts of `processPayment`: `finalAmount` starts as the
   * amount clamped at 0, is rewritten for a cancellation of a booking that
   * already existed, clamped again, and becomes `recordedPayment`, which an
   * admin cancellation then replaces by its own rule.
   */
  method RecordedAmount(admin: bool, cancellation: bool, amount: real,
                        existingPrice: Option<real>) returns (recorded: real)
    ensures recorded == RecordedAmountOf(admin, cancellation, amount, existingPrice)
  {
    var finalAmount := Max0(amount);
    if cancellation && existingPrice.Some? {
      var originalPrice := Max0(existingPrice.value);
      if admin {
        if amount > 0.0 {
          finalAmount := originalPrice + amount;
        } else {
          finalAmount := originalPrice;
        }
      } else {
        var deduction := if Abs(amount) < originalPrice then Abs(amount) else originalPrice;
        finalAmount := Max0(originalPrice - deduction);
      }
    }
    finalAmount := Max0(finalAmount);
    recorded := Max0(finalAmount);
    if cancellation && admin {
      if amount <= 0.0 {
        recorded := 0.0;
      } else {
        recorded := amount;
      }
    }
  }

  /** The booking `processPayment` inserts for an unknown ticket (class defaults to Economy). */
  function PaymentBooking(id: nat, owner: string, flightId: Value, d: BookingDetails, price: real): (r: Booking)
    ensures r.id == id && r.owner == owner && r.price == price
    ensures r.status == Confirmed && !r.cancelled && r.reason == Null && r.cancelReason == Null
    ensures r.classType == (if Truthy(d.classType) then d.classType else Text("Economy"))
  {
    Booking(id, owner, Trip(flightId, d.flightName, d.source, d.destination, d.date, d.duration),
            Or(d.classType, Text("Economy")), price, Confirmed, false, Null, Null)
  }

  /**
   * The booking after a payment: a cancellation sets status Cancelled (an
   * admin's leaves the price, a user's lowers it to the remaining price), any
   * other payment sets status Paid and leaves the price. The cancelled flag
   * and the reason columns are not touched.
   */
  function AfterPayment(b: Booking, admin: bool, cancellation: bool, amount: real): (r: Booking)
    ensures r.id == b.id && r.owner == b.owner && r.trip == b.trip && r.classType == b.classType
    ensures r.cancelled == b.cancelled && r.reason == b.reason && r.cancelReason == b.cancelReason
    ensures r.status == (if cancellation then Cancelled else Paid)
    ensures !cancellation || admin ==> r.price == b.price
    ensures cancellation && !admin ==> r.price == UserCancelPrice(Max0(b.price), amount) && 0.0 <= r.price <= Max0(b.price)
  {
    if !cancellation then b.(status := Paid)
    else if admin then b.(status := Cancelled)
    else b.(status := Cancelled, price := UserCancelPrice(Max0(b.price), amount))
  }

  // ---------------------------------------------------------------------------
  // Sanitisation

  function ClampPayment(p: Payment): (q: Payment)
    ensures q.amount >= 0.0
    ensures p.amount >= 0.0 ==> q == p
    ensures p.amount < 0.0 ==> q == p.(amount := 0.0)
  {
    if p.amount < 0.0 then p.(amount := 0.0) else p
  }

  /** `UPDATE payments SET amount = 0 WHERE amount < 0`. */
  function ClampAmounts(ps: seq<Payment>): (qs: seq<Payment>)
    ensures |qs| == |ps|
    ensures forall i :: 0 <= i < |ps| ==> qs[i].amount >= 0.0
    ensures forall i :: 0 <= i < |ps| && ps[i].amount >= 0.0 ==> qs[i] == ps[i]
    ensures forall i :: 0 <= i < |ps| && ps[i].amount < 0.0 ==> qs[i] == ps[i].(amount := 0.0)
  {
    seq(|ps|, i requires 0 <= i < |ps| => ClampPayment(ps[i]))
  }

  /** The number of payment rows with a negative amount. */
  function CountNegative(ps: seq<Payment>): (n: nat)
    ensures n <= |ps|
    ensures n > 0 ==> exists i :: 0 <= i < |ps| && ps[i].amount < 0.0
  {
    if ps == [] then 0
    else CountNegative(ps[..|ps| - 1]) + (if ps[|ps| - 1].amount < 0.0 then 1 else 0)
  }

  /** At most every row is negative, and none is exactly when the count is 0. */
  lemma {:induction false} CountNegativeBounds(ps: seq<Payment>)
    ensures CountNegative(ps) <= |ps|
    ensures CountNegative(ps) == 0 <==> forall i :: 0 <= i < |ps| ==> ps[i].amount >= 0.0
  {
    if ps != [] {
      var init := ps[..|ps| - 1];
      CountNegativeBounds(init);
      assert forall i :: 0 <= i < |init| ==> init[i] == ps[i];
    }
  }

  /** After sanitising there is nothing left to fix: a second run reports 0 and changes nothing. */
  lemma SanitizeIsIdempotent(ps: seq<Payment>)
    ensures CountNegative(ClampAmounts(ps)) == 0
    ensures ClampAmounts(ClampAmounts(ps)) == ClampAmounts(ps)
  {
    CountNegativeBounds(ClampAmounts(ps));
  }

  function ClampPrice(b: Booking): Booking
  {
    if b.price < 0.0 then b.(price := 0.0) else b
  }

  /** `UPDATE bookings SET price = 0 WHERE price < 0`. */
  function ClampPrices(bs: map<string, Booking>): (cs: map<string, Booking>)
    ensures cs.Keys == bs.Keys
    ensures forall t :: t in bs ==> cs[t].price >= 0.0 && cs[t].id == bs[t].id
    ensures forall t :: t in bs && bs[t].price >= 0.0 ==> cs[t] == bs[t]
    ensures forall t :: t in bs && bs[t].price < 0.0 ==> cs[t] == bs[t].(price := 0.0)
  {
    map t | t in bs :: ClampPrice(bs[t])
  }

  /** The tickets whose booking has a negative price. */
  function NegativelyPriced(bs: map<string, Booking>): (ts: set<string>)
    ensures ts <= bs.Keys
    ensures forall t :: t in bs && bs[t].price >= 0.0 ==> t !in ts
  {
    set t | t in bs && bs[t].price < 0.0
  }

  /** Prices after sanitising have no negative left, and a second run changes nothing. */
  lemma PriceSanitizeIsIdempotent(bs: map<string, Booking>)
    ensures NegativelyPriced(ClampPrices(bs)) == {}
    ensures ClampPrices(ClampPrices(bs)) == ClampPrices(bs)
  {
  }

  /** The fixed count is at most the number of bookings, and 0 exactly when none is negative. */
  lemma NegativelyPricedBounds(bs: map<string, Booking>)
    ensures |NegativelyPriced(bs)| <= |bs|
    ensures |NegativelyPriced(bs)| == 0 <==> forall t :: t in bs ==> bs[t].price >= 0.0
  {
    SubsetCard(NegativelyPriced(bs), bs.Keys);
    assert |bs.Keys| == |bs|;
    if |NegativelyPriced(bs)| == 0 {
      forall t | t in bs
        ensures bs[t].price >= 0.0
      {
        assert t !in NegativelyPriced(bs);
      }
    }
  }

  /** A subset is no larger than the set it is drawn from. */
  lemma {:induction false} SubsetCard(a: set<string>, b: set<string>)
    requires a <= b
    ensures |a| <= |b|
    decreases |a|
  {
    if a != {} {
      var x :| x in a;
      SubsetCard(a - {x}, b - {x});
    }
  }
}

=== FILE: numerals.dfy ===
/**
 * Decimal numerals as JavaScript writes and reads them for identifiers:
 * `String(n)`, `padStart(width, "0")` and the digit-prefix reading of
 * `parseInt`.
 */
module Numerals {
  import opened Wrappers

  predicate IsDigit(c: char) { '0' <= c <= '9' }

  predicate AllDigits(s: string) { forall i :: 0 <= i < |s| ==> IsDigit(s[i]) }

  function DigitValue(c: char): nat
    requires IsDigit(c)
  {
    c as int - '0' as int
  }

  function DigitChar(d: nat): (c: char)
    requires d < 10
    ensures IsDigit(c) && DigitValue(c) == d
  {
    ('0' as int + d) as char
  }

  /** The value of a string of decimal digits, most significant first. */
  function DigitsValue(s: string): nat
    requires AllDigits(s)
  {
    if s == [] then 0 else DigitsValue(s[..|s| - 1]) * 10 + DigitValue(s[|s| - 1])
  }

  /** `String(n)` for a non-negative integer: the shortest decimal numeral. */
  function NatToString(n: nat): (s: string)
    ensures AllDigits(s) && 1 <= |s|
    ensures DigitsValue(s) == n
    ensures |s| > 1 ==> s[0] != '0'
  {
    if n < 10 then [DigitChar(n)]
    else
      var prefix := NatToString(n / 10);
      var s := prefix + [DigitChar(n % 10)];
      assert s[..|s| - 1] == prefix;
      s
  }

  function Zeros(k: nat): (z: string)
    ensures |z| == k && AllDigits(z)
  {
    if k == 0 then "" else Zeros(k - 1) + "0"
  }

  /** `s.padStart(width, "0")`. */
  function PadStart(s: string, width: nat): (p: string)
  {
    if |s| >= width then s else Zeros(width - |s|) + s
  }

  /** The longest prefix of `s` made of decimal digits. */
  function DigitPrefix(s: string): (p: string)
    ensures p <= s && AllDigits(p)
    ensures |p| < |s| ==> !IsDigit(s[|p|])
  {
    if s == [] || !IsDigit(s[0]) then "" else [s[0]] + DigitPrefix(s[1..])
  }

  /**
   * `parseInt(s)` for strings without leading blanks or sign: the value of
   * the leading digits, or None (JavaScript's NaN) when there are none.
   */
  function ParseIntPrefix(s: string): (r: Option<nat>)
    ensures r.None? <==> (s == [] || !IsDigit(s[0]))
  {
    var p := DigitPrefix(s);
    if p == [] then None else Some(DigitsValue(p))
  }

  lemma {:induction false} DigitPrefixOfDigits(s: string)
    requires AllDigits(s)
    ensures DigitPrefix(s) == s
  {
    if s != [] {
      DigitPrefixOfDigits(s[1..]);
    }
  }

  lemma {:induction false} ValueOfZeros(k: nat)
    ensures DigitsValue(Zeros(k)) == 0
  {
    if k > 0 {
      var z := Zeros(k);
      assert z[..|z| - 1] == Zeros(k - 1);
      ValueOfZeros(k - 1);
    }
  }

  /** Leading zeros do not change the value of a numeral. */
  lemma {:induction false} ValueIgnoresLeadingZeros(k: nat, s: string)
    requires AllDigits(s)
    ensures AllDigits(Zeros(k) + s) && DigitsValue(Zeros(k) + s) == DigitsValue(s)
  {
    var z := Zeros(k) + s;
    if s == [] {
      assert z == Zeros(k);
      ValueOfZeros(k);
    } else {
      assert z[..|z| - 1] == Zeros(k) + s[..|s| - 1];
      ValueIgnoresLeadingZeros(k, s[..|s| - 1]);
    }
  }

  /**
   * Reading a zero-padded numeral back with `parseInt` gives the number that
   * was written.
   */
  lemma PaddedRoundTrip(n: nat, width: nat)
    ensures AllDigits(PadStart(NatToString(n), width))
    ensures |PadStart(NatToString(n), width)| >= width
    ensures ParseIntPrefix(PadStart(NatToString(n), width)) == Some(n)
  {
    var s := NatToString(n);
    var p := PadStart(s, width);
    if |s| < width {
      assert p == Zeros(width - |s|) + s;
      ValueIgnoresLeadingZeros(width - |s|, s);
    } else {
      assert p == s;
    }
    assert AllDigits(p) && DigitsValue(p) == n && |p| >= 1;
    DigitPrefixOfDigits(p);
    assert IsDigit(p[0]);
    assert ParseIntPrefix(p) == Some(DigitsValue(p));
  }
}

=== FILE: payment_routes.dfy ===
/**
 * The payment routes: saving a payment row with a generated `PAY-` id, and
 * the three read routes over the payments table (all payments for an
 * admin, one user's payments, the payment of one ticket).
 */
module PaymentRoutes {
  import opened Wrappers
  import opened Js
  import opened Identifiers
  import opened Ledger
  import opened Store

  /** The body of `POST /api/payments/save`; an absent `user_id` is `None`. */
  datatype SavePaymentRequest = SavePaymentRequest(ticketId: string, amount: Value, mode: Value,
                                                   userId: Option<string>)

  /** `Math.max(0, parseFloat(amount) || 0)`: a failed parse and a negative number both store 0. */
  function StoredAmount(v: Value): (r: real)
    ensures r >= 0.0
    ensures ParseFloat(v).Some? && ParseFloat(v).value >= 0.0 ==> r == ParseFloat(v).value
    ensures ParseFloat(v).None? || ParseFloat(v).value < 0.0 ==> r == 0.0
  {
    Max0(NumberOrZero(v))
  }

  /** A whole-number amount sent as text is stored as that number. */
  lemma StoredAmountOfNumeral(n: nat)
    ensures StoredAmount(Text(Numerals.NatToString(n))) == n as real
  {
    ParseFloatOfNumeral(n);
  }

  /** Whether some row already holds this primary key. */
  predicate PaymentIdTaken(ps: seq<Payment>, id: string)
  {
    exists i :: 0 <= i < |ps| && ps[i].paymentId == Some(id)
  }

  /** The row `POST /api/payments/save` inserts. */
  function SavedPayment(req: SavePaymentRequest, id: string): (p: Payment)
    ensures p.paymentId == Some(id) && p.ticketId == req.ticketId && p.userId == req.userId
    ensures p.amount >= 0.0 && p.amount == StoredAmount(req.amount) && p.mode == req.mode
    ensures p.status == "completed"
  {
    Payment(Some(id), req.ticketId, StoredAmount(req.amount), req.mode, "completed", req.userId)
  }

  /**
   * `POST /api/payments/save`: 401 without a session user or admin, 400
   * without a ticket id or with a null amount; otherwise inserts a
   * "completed" row under a fresh `PAY-<time>-<n>` id with the amount
   * clamped at 0. The insert fails when the ticket has no booking (the
   * foreign key) or the generated id is already taken (the primary key).
   */
  method SavePayment(store: LedgerStore, session: Session, req: SavePaymentRequest,
                     time: nat, random: real)
    returns (r: Result<string, Error>)
    requires store.Valid() && 0.0 <= random < 1.0
    modifies store`payments
    ensures store.Valid()
    ensures !session.admin && session.user.None? ==> r == Failure(Unauthenticated)
    ensures (session.admin || session.user.Some?) && (req.ticketId == "" || IsNullish(req.amount)) ==>
              r == Failure(MissingFields)
    ensures r.Success? <==>
              && (session.admin || session.user.Some?)
              && req.ticketId != "" && !IsNullish(req.amount)
              && req.ticketId in store.bookings
              && !PaymentIdTaken(old(store.payments), GeneratePaymentId(time, random))
    ensures r.Failure? ==> store.payments == old(store.payments)
    ensures r.Success? ==>
              && r.value == GeneratePaymentId(time, random)
              && store.payments == old(store.payments) + [SavedPayment(req, r.value)]
  {
    if !session.admin && session.user.None? {
      return Failure(Unauthenticated);
    }
    if req.ticketId == "" || IsNullish(req.amount) {
      return Failure(MissingFields);
    }
    var id := GeneratePaymentId(time, random);
    if req.ticketId !in store.bookings {
      return Failure(StorageFailure);
    }
    if PaymentIdTaken(store.payments, id) {
      return Failure(StorageFailure);
    }
    store.AppendPayment(SavedPayment(req, id));
    r := Success(id);
  }

  /** `WHERE p.user_id = ?`: the rows recorded for this user, in ledger order. */
  function PaymentsOf(ps: seq<Payment>, uid: string): (r: seq<Payment>)
    ensures |r| <= |ps|
    ensures forall p :: p in r <==> p in ps && p.userId == Some(uid)
  {
    if ps == [] then []
    else
      var init := PaymentsOf(ps[..|ps| - 1], uid);
      var last := ps[|ps| - 1];
      assert ps == ps[..|ps| - 1] + [last];
      if last.userId == Some(uid) then init + [last] else init
  }

  /** A row appended to the ledger shows up at the end of its user's list and nowhere else. */
  lemma PaymentsOfAppend(ps: seq<Payment>, p: Payment, uid: string)
    ensures PaymentsOf(ps + [p], uid) == PaymentsOf(ps, uid) + (if p.userId == Some(uid) then [p] else [])
  {
    assert (ps + [p])[..|ps|] == ps;
  }

  /**
   * `GET /api/payments/user/:userId`: an admin, or the signed-in user asking
   * for their own id, gets the user's payments; anyone else gets 403.
   */
  function UserPayments(session: Session, ps: seq<Payment>, uid: string): (r: Result<seq<Payment>, Error>)
    ensures r.Failure? <==> !session.admin && (session.user.None? || session.user.value.userId != uid)
    ensures r.Failure? ==> r.error == Forbidden
    ensures r.Success? ==> forall p :: p in r.value <==> p in ps && p.userId == Some(uid)
  {
    if !session.admin && (session.user.None? || session.user.value.userId != uid) then Failure(Forbidden)
    else Success(PaymentsOf(ps, uid))
  }

  /** The position of the first row for this ticket. */
  function FirstPaymentFor(ps: seq<Payment>, t: string): (r: Option<nat>)
    ensures r.None? <==> forall i :: 0 <= i < |ps| ==> ps[i].ticketId != t
    ensures r.Some? ==>
              && r.value < |ps| && ps[r.value].ticketId == t
              && forall j :: 0 <= j < r.value ==> ps[j].ticketId != t
  {
    if ps == [] then None
    else if ps[0].ticketId == t then Some(0)
    else
      var rest := FirstPaymentFor(ps[1..], t);
      if rest.None? then None else Some(rest.value + 1)
  }

  /** `GET /api/payments/ticket/:ticketId`: the ticket's first payment row, or 404. */
  function PaymentForTicket(ps: seq<Payment>, t: string): (r: Result<Payment, Error>)
    ensures r.Failure? <==> forall i :: 0 <= i < |ps| ==> ps[i].ticketId != t
    ensures r.Failure? ==> r.error == NotFound
    ensures r.Success? ==> r.value in ps && r.value.ticketId == t
  {
    var i := FirstPaymentFor(ps, t);
    if i.None? then Failure(NotFound) else Success(ps[i.value])
  }

  /** Appending a row keeps an existing answer and gives the new row to a ticket that had none. */
  lemma {:induction false} PaymentForTicketAppend(ps: seq<Payment>, p: Payment, t: string)
    ensures PaymentForTicket(ps + [p], t) ==
              if PaymentForTicket(ps, t).Success? then PaymentForTicket(ps, t)
              else if p.ticketId == t then Success(p)
              else Failure(NotFound)
  {
    FirstPaymentForAppend(ps, p, t);
  }

  lemma {:induction false} FirstPaymentForAppend(ps: seq<Payment>, p: Payment, t: string)
    ensures FirstPaymentFor(ps + [p], t) ==
              if FirstPaymentFor(ps, t).Some? then FirstPaymentFor(ps, t)
              else if p.ticketId == t then Some(|ps|)
              else None
  {
    if ps != [] {
      assert (ps + [p])[1..] == ps[1..] + [p];
      FirstPaymentForAppend(ps[1..], p, t);
    }
  }

  /** A saved payment can be looked up by its ticket afterwards. */
  lemma SavedPaymentIsFound(ps: seq<Payment>, req: SavePaymentRequest, id: string)
    ensures PaymentForTicket(ps + [SavedPayment(req, id)], req.ticketId).Success?
    ensures req.userId.Some? ==> SavedPayment(req, id) in PaymentsOf(ps + [SavedPayment(req, id)], req.userId.value)
  {
    PaymentForTicketAppend(ps, SavedPayment(req, id), req.ticketId);
  }

  /** `GET /api/admin/payments`: every payment row for an admin, 403 for anyone else. */
  function AdminPayments(session: Session, ps: seq<Payment>): (r: Result<seq<Payment>, Error>)
    ensures r.Success? <==> session.admin
    ensures r.Failure? ==> r.error == Forbidden
    ensures r.Success? ==> r.value == ps
  {
    if !session.admin then Failure(Forbidden) else Success(ps)
  }
}

=== FILE: store.dfy ===
/**
 * The `bookings` and `payments` tables as one in-memory store, and the
 * server's booking, cancellation, payment and sanitisation handlers as
 * methods on it. Each handler runs as one transaction: it either applies
 * all of its writes or, on any error, none.
 */
module Store {
  import opened Wrappers
  import opened Js
  import opened Ledger

  /** What the booking-save routes answer: the ticket id and the owner used. */
  datatype Saved = Saved(ticketId: string, userId: string)

  /** What a cancellation by internal id answers. */
  datatype CancelReceipt = CancelReceipt(refund: real, reason: string)

  /** What `processPayment` answers: the ticket and the position of the new payment row, if any. */
  datatype Receipt = Receipt(ticketId: string, paymentIndex: Option<nat>)

  datatype SanitizeReport = SanitizeReport(paymentsFixed: nat, bookingsFixed: nat)

  /** Some booking has this internal id. */
  ghost predicate HasId(bs: map<string, Booking>, id: nat)
  {
    exists t :: t in bs && bs[t].id == id
  }

  ghost function TicketWithId(bs: map<string, Booking>, id: nat): (t: string)
    requires HasId(bs, id)
    ensures t in bs && bs[t].id == id
  {
    var t :| t in bs && bs[t].id == id; t
  }

  /**
   * The booking a payment request works on before its status update: the
   * existing row, or the row it inserts from `booking_details`; None when
   * the ticket is unknown and no row can be inserted.
   */
  function PaymentTarget(bs: map<string, Booking>, nextId: nat, s: Session,
                         req: PaymentRequest, guestId: string): Option<Booking>
  {
    if req.ticketId in bs then Some(bs[req.ticketId])
    else if req.details.None? || DecimalOf(req.amount).None? then None
    else Some(PaymentBooking(nextId, PayerId(s, req, guestId), req.flightId, req.details.value,
                             DecimalOf(req.amount).value))
  }

  /** The amount `processPayment` records for this request against these bookings. */
  function RecordedFor(bs: map<string, Booking>, s: Session, req: PaymentRequest): real
  {
    RecordedAmountOf(s.admin, IsCancellation(req), NumberOrZero(req.amount),
                     if req.ticketId in bs then Some(bs[req.ticketId].price) else None)
  }

  /** The payment row `processPayment` inserts. */
  function PaymentEntry(s: Session, req: PaymentRequest, guestId: string, recorded: real): (p: Payment)
    ensures p.ticketId == req.ticketId && p.amount == recorded && p.mode == req.mode
    ensures p.paymentId.None? && p.status == "Success"
    ensures p.userId == Some(PayerId(s, req, guestId))
    ensures guestId != "" ==> p.userId.value != ""
  {
    Payment(None, req.ticketId, recorded, req.mode, "Success", Some(PayerId(s, req, guestId)))
  }

  /** Writing a key twice leaves only the second value. */
  lemma OverwriteTwice(m: map<string, Booking>, t: string, a: Booking, b: Booking)
    ensures m[t := a][t := b] == m[t := b]
  {
  }

  class LedgerStore {
    /** `bookings`, keyed by the unique ticket id. */
    var bookings: map<string, Booking>
    /** `payments`, in insertion order. */
    var payments: seq<Payment>
    /** The next value of the bookings table's auto-increment `id`. */
    var nextId: nat

    /**
     * Internal ids are below the counter and distinct, and every payment
     * names a ticket that has a booking (the foreign key of `payments`).
     */
    ghost predicate Valid()
      reads this
    {
      && (forall t :: t in bookings ==> bookings[t].id < nextId)
      && (forall t, u :: t in bookings && u in bookings && bookings[t].id == bookings[u].id ==> t == u)
      && (forall i :: 0 <= i < |payments| ==> payments[i].ticketId in bookings)
    }

    constructor ()
      ensures Valid()
      ensures bookings == map[] && payments == [] && nextId == 1
    {
      bookings := map[];
      payments := [];
      nextId := 1;
    }

    /** `INSERT INTO bookings`: a new ticket with the next internal id. */
    method InsertBooking(t: string, b: Booking)
      requires Valid() && t !in bookings && b.id == nextId
      modifies this
      ensures Valid()
      ensures bookings == old(bookings)[t := b] && nextId == old(nextId) + 1 && payments == old(payments)
    {
      bookings := bookings[t := b];
      nextId := nextId + 1;
    }

    /** `UPDATE bookings ... WHERE ticket_id = t`: the row keeps its internal id. */
    method UpdateBooking(t: string, b: Booking)
      requires Valid() && t in bookings && b.id == bookings[t].id
      modifies this`bookings
      ensures Valid()
      ensures bookings == old(bookings)[t := b]
    {
      bookings := bookings[t := b];
    }

    /** `INSERT INTO payments`: the ticket must have a booking. */
    method AppendPayment(p: Payment)
      requires Valid() && p.ticketId in bookings
      modifies this`payments
      ensures Valid()
      ensures payments == old(payments) + [p]
    {
      payments := payments + [p];
    }

    /**
     * `POST /bookings/save`: rejects a request without flight id or price
     * (400) or without any user id (401), then updates the ticket's booking
     * if there is one and inserts a confirmed one if not.
     */
    method SaveBooking(session: Session, req: BookingRequest, generatedTicket: string)
      returns (r: Result<Saved, Error>)
      requires Valid()
      modifies this
      ensures Valid()
      ensures payments == old(payments)
      ensures !Truthy(req.trip.flightId) || !Truthy(req.price) ==> r == Failure(MissingFields)
      ensures Truthy(req.trip.flightId) && Truthy(req.price) && ResolveOwner(session, req.userId).None? ==>
                r == Failure(Unauthenticated)
      ensures (Truthy(req.trip.flightId) && Truthy(req.price) && ResolveOwner(session, req.userId).Some?
               && DecimalOf(req.price).None?) ==> r == Failure(StorageFailure)
      ensures r.Success? <==> (Truthy(req.trip.flightId) && Truthy(req.price)
                               && ResolveOwner(session, req.userId).Some? && DecimalOf(req.price).Some?)
      ensures r.Failure? ==> bookings == old(bookings) && nextId == old(nextId)
      ensures r.Success? ==>
                var t := ChosenTicket(req.ticketId, generatedTicket);
                var owner := ResolveOwner(session, req.userId).value;
                var price := DecimalOf(req.price).value;
                && r.value == Saved(t, owner)
                && bookings == old(bookings)[t := if t in old(bookings)
                                                  then SaveUpdate(old(bookings)[t], owner, req, price)
                                                  else SaveInsert(old(nextId), owner, req, price)]
                && nextId == (if t in old(bookings) then old(nextId) else old(nextId) + 1)
    {
      var ticket := ChosenTicket(req.ticketId, generatedTicket);
      if !Truthy(req.trip.flightId) || !Truthy(req.price) {
        return Failure(MissingFields);
      }
      var owner := ResolveOwner(session, req.userId);
      if owner.None? {
        return Failure(Unauthenticated);
      }
      var price := DecimalOf(req.price);
      if price.None? {
        return Failure(StorageFailure);
      }
      if ticket in bookings {
        bookings := bookings[ticket := SaveUpdate(bookings[ticket], owner.value, req, price.value)];
      } else {
        bookings := bookings[ticket := SaveInsert(nextId, owner.value, req, price.value)];
        nextId := nextId + 1;
      }
      r := Success(Saved(ticket, owner.value));
    }

    /**
     * `POST /api/book-ticket`: the second upsert. It checks only for a user
     * id (401); its update keeps the row's owner, status and `reason`.
     */
    method BookTicket(session: Session, req: BookingRequest, generatedTicket: string)
      returns (r: Result<Saved, Error>)
      requires Valid()
      modifies this
      ensures Valid()
      ensures payments == old(payments)
      ensures ResolveOwner(session, req.userId).None? ==> r == Failure(Unauthenticated)
      ensures ResolveOwner(session, req.userId).Some? && DecimalOf(req.price).None? ==> r == Failure(StorageFailure)
      ensures r.Success? <==> ResolveOwner(session, req.userId).Some? && DecimalOf(req.price).Some?
      ensures r.Failure? ==> bookings == old(bookings) && nextId == old(nextId)
      ensures r.Success? ==>
                var t := ChosenTicket(req.ticketId, generatedTicket);
                var owner := ResolveOwner(session, req.userId).value;
                var price := DecimalOf(req.price).value;
                && r.value == Saved(t, owner)
                && bookings == old(bookings)[t := if t in old(bookings)
                                                  then BookTicketUpdate(old(bookings)[t], req, price)
                                                  else BookTicketInsert(old(nextId), owner, req, price)]
                && nextId == (if t in old(bookings) then old(nextId) else old(nextId) + 1)
    {
      var ticket := ChosenTicket(req.ticketId, generatedTicket);
      var owner := ResolveOwner(session, req.userId);
      if owner.None? {
        return Failure(Unauthenticated);
      }
      var price := DecimalOf(req.price);
      if price.None? {
        return Failure(StorageFailure);
      }
      if ticket in bookings {
        bookings := bookings[ticket := BookTicketUpdate(bookings[ticket], req, price.value)];
      } else {
        bookings := bookings[ticket := BookTicketInsert(nextId, owner.value, req, price.value)];
        nextId := nextId + 1;
      }
      r := Success(Saved(ticket, owner.value));
    }

    /**
     * `POST /bookings/cancel/:ticketId`: cancels a booking that exists and is
     * not cancelled yet, storing the label in both reason columns.
     */
    method CancelByTicket(session: Session, ticketId: string, provided: Option<string>)
      returns (r: Result<string, Error>)
      requires Valid()
      modifies this
      ensures Valid()
      ensures payments == old(payments) && nextId == old(nextId)
      ensures r.Failure? <==> ticketId !in old(bookings) || old(bookings)[ticketId].cancelled
      ensures r.Failure? ==> r.error == NotFoundOrCancelled && bookings == old(bookings)
      ensures r.Success? ==>
                && r.value == TicketCancelLabel(provided, session.admin)
                && bookings == old(bookings)[ticketId := CancelledRow(old(bookings)[ticketId], Text(r.value))]
    {
      var reason := TicketCancelLabel(provided, session.admin);
      if ticketId !in bookings || bookings[ticketId].cancelled {
        return Failure(NotFoundOrCancelled);
      }
      bookings := bookings[ticketId := CancelledRow(bookings[ticketId], Text(reason))];
      r := Success(reason);
    }

    /**
     * `POST /api/bookings/cancel`: cancels by ticket id with the body's reason
     * or "No reason provided"; it does not check for an earlier cancellation.
     */
    method CancelWithReason(ticketId: string, cancelReason: Value) returns (r: Result<(), Error>)
      requires Valid()
      modifies this
      ensures Valid()
      ensures payments == old(payments) && nextId == old(nextId)
      ensures ticketId == "" ==> r == Failure(MissingFields)
      ensures ticketId != "" && ticketId !in old(bookings) ==> r == Failure(NotFound)
      ensures r.Success? <==> ticketId in old(bookings) && ticketId != ""
      ensures r.Failure? ==> bookings == old(bookings)
      ensures r.Success? ==>
                bookings == old(bookings)[ticketId := CancelledRow(old(bookings)[ticketId],
                                                                   ReasonOrDefault(cancelReason))]
    {
      if ticketId == "" {
        return Failure(MissingFields);
      }
      if ticketId !in bookings {
        return Failure(NotFound);
      }
      bookings := bookings[ticketId := CancelledRow(bookings[ticketId], ReasonOrDefault(cancelReason))];
      r := Success(());
    }

    /**
     * `POST /booking/cancel/:bookingId`: cancels by internal id. A user
     * cancellation appends one refund entry of `-|refund|`; an admin
     * cancellation appends nothing and reports a refund of 0. The price is
     * never changed.
     */
    method CancelById(session: Session, bookingId: nat) returns (r: Result<CancelReceipt, Error>)
      requires Valid()
      modifies this
      ensures Valid()
      ensures nextId == old(nextId)
      ensures !HasId(old(bookings), bookingId) ==> r == Failure(NotFound)
      ensures HasId(old(bookings), bookingId) && old(bookings)[TicketWithId(old(bookings), bookingId)].cancelled ==>
                r == Failure(AlreadyCancelled)
      ensures r.Failure? ==> bookings == old(bookings) && payments == old(payments)
      ensures HasId(old(bookings), bookingId) && !old(bookings)[TicketWithId(old(bookings), bookingId)].cancelled ==>
                var t := TicketWithId(old(bookings), bookingId);
                var b := old(bookings)[t];
                var admin := IsCancelAdmin(session);
                var refund := Refund(b.price, b.classType);
                && bookings == old(bookings)[t := CancelledRow(b, Text(IdCancelLabel(admin)))]
                && payments == old(payments) + (if admin then [] else [RefundEntry(t, refund)])
                && r == Success(CancelReceipt(if admin then 0.0 else refund, IdCancelLabel(admin)))
    {
      if !exists t :: t in bookings && bookings[t].id == bookingId {
        return Failure(NotFound);
      }
      var ticket :| ticket in bookings && bookings[ticket].id == bookingId;
      assert ticket == TicketWithId(bookings, bookingId);
      var b := bookings[ticket];
      if b.cancelled {
        return Failure(AlreadyCancelled);
      }
      var refund := Refund(b.price, b.classType);
      var admin := IsCancelAdmin(session);
      var reason := IdCancelLabel(admin);
      bookings := bookings[ticket := CancelledRow(b, Text(reason))];
      if !admin {
        payments := payments + [RefundEntry(ticket, refund)];
      }
      r := Success(CancelReceipt(if admin then 0.0 else refund, reason));
    }

    /**
     * `processPayment` (`POST /api/payments/add`): inserts the booking when it
     * is unknown and details are given, records a payment only when the
     * recorded amount is positive, and sets the status to Cancelled or Paid.
     */
    method ProcessPayment(session: Session, req: PaymentRequest, guestId: string)
      returns (r: Result<Receipt, Error>)
      requires Valid()
      modifies this
      ensures Valid()
      ensures req.ticketId == "" || !Truthy(req.amount) || !Truthy(req.mode) ==> r == Failure(MissingFields)
      ensures r == Failure(BookingRequired) <==>
                req.ticketId != "" && Truthy(req.amount) && Truthy(req.mode)
                && req.ticketId !in old(bookings) && req.details.None?
      ensures r.Failure? ==> bookings == old(bookings) && payments == old(payments) && nextId == old(nextId)
      ensures r.Success? <==>
                && req.ticketId != "" && Truthy(req.amount) && Truthy(req.mode)
                && PaymentTarget(old(bookings), old(nextId), session, req, guestId).Some?
      ensures r.Success? ==>
                bookings == old(bookings)[req.ticketId := AfterPayment(
                              PaymentTarget(old(bookings), old(nextId), session, req, guestId).value,
                              session.admin, IsCancellation(req), NumberOrZero(req.amount))]
      ensures r.Success? ==> nextId == (if req.ticketId in old(bookings) then old(nextId) else old(nextId) + 1)
      ensures r.Success? ==>
                var recorded := RecordedFor(old(bookings), session, req);
                && payments == old(payments) + (if recorded > 0.0 then [PaymentEntry(session, req, guestId, recorded)] else [])
                && r.value == Receipt(req.ticketId, if recorded > 0.0 then Some(|old(payments)|) else None)
    {
      if req.ticketId == "" || !Truthy(req.amount) || !Truthy(req.mode) {
        return Failure(MissingFields);
      }
      var ticket := req.ticketId;
      var payer := PayerId(session, req, guestId);
      var amount := NumberOrZero(req.amount);
      var cancellation := IsCancellation(req);
      var existing := if ticket in bookings then Some(bookings[ticket].price) else None;
      var recorded := RecordedAmount(session.admin, cancellation, amount, existing);
      ghost var before := PaymentTarget(bookings, nextId, session, req, guestId);
      ghost var oldBookings, oldPayments := bookings, payments;
      assert recorded == RecordedFor(bookings, session, req);
      var insertion := OpenBooking(session, req, guestId);
      if insertion.Failure? {
        return Failure(insertion.error);
      }
      var paymentIndex: Option<nat> := None;
      if recorded > 0.0 {
        paymentIndex := Some(|payments|);
        AppendPayment(Payment(None, ticket, recorded, req.mode, "Success", Some(payer)));
      }
      ghost var afterOpen := bookings;
      assert afterOpen == oldBookings[ticket := before.value];
      assert payments == oldPayments + (if recorded > 0.0 then [PaymentEntry(session, req, guestId, recorded)] else []);
      var row := AfterPayment(bookings[ticket], session.admin, cancellation, amount);
      UpdateBooking(ticket, row);
      OverwriteTwice(oldBookings, ticket, before.value, row);
      r := Success(Receipt(ticket, paymentIndex));
    }

    /**
     * The first half of `processPayment`: a ticket without a booking gets one
     * inserted from the request's booking details (400 without them, a
     * storage failure when the amount is not a valid DECIMAL).
     */
    method OpenBooking(session: Session, req: PaymentRequest, guestId: string)
      returns (r: Result<(), Error>)
      requires Valid()
      modifies this
      ensures Valid() && payments == old(payments)
      ensures r.Success? <==> PaymentTarget(old(bookings), old(nextId), session, req, guestId).Some?
      ensures r.Failure? ==>
                && r.error == (if req.details.None? then BookingRequired else StorageFailure)
                && req.ticketId !in old(bookings)
                && bookings == old(bookings) && nextId == old(nextId)
      ensures r.Success? ==>
                && bookings == old(bookings)[req.ticketId := PaymentTarget(old(bookings), old(nextId), session, req, guestId).value]
                && nextId == (if req.ticketId in old(bookings) then old(nextId) else old(nextId) + 1)
    {
      var ticket := req.ticketId;
      if ticket in bookings {
        return Success(());
      }
      if req.details.None? {
        return Failure(BookingRequired);
      }
      var price := DecimalOf(req.amount);
      if price.None? {
        return Failure(StorageFailure);
      }
      InsertBooking(ticket, PaymentBooking(nextId, PayerId(session, req, guestId), req.flightId,
                                           req.details.value, price.value));
      r := Success(());
    }

    /**
     * `POST /admin/sanitize-payments`: for an admin, sets every negative
     * payment amount and every negative booking price to 0 and reports how
     * many rows of each it fixed; anyone else gets 403.
     */
    method Sanitize(session: Session) returns (r: Result<SanitizeReport, Error>)
      requires Valid()
      modifies this
      ensures Valid()
      ensures nextId == old(nextId)
      ensures !session.admin ==> r == Failure(Forbidden) && bookings == old(bookings) && payments == old(payments)
      ensures session.admin ==>
                && payments == ClampAmounts(old(payments))
                && bookings == ClampPrices(old(bookings))
                && r == Success(SanitizeReport(CountNegative(old(payments)), |NegativelyPriced(old(bookings))|))
    {
      if !session.admin {
        return Failure(Forbidden);
      }
      var paymentsFixed := CountNegative(payments);
      payments := ClampAmounts(payments);
      var bookingsFixed := |NegativelyPriced(bookings)|;
      bookings := ClampPrices(bookings);
      r := Success(SanitizeReport(paymentsFixed, bookingsFixed));
    }
  }

  /**
   * Two identical saves of a request that names its ticket leave exactly one
   * booking for the ticket, and both name the same ticket and owner.
   */
  method SaveTwice(store: LedgerStore, session: Session, req: BookingRequest, generatedTicket: string)
    returns (first: Result<Saved, Error>, second: Result<Saved, Error>)
    requires store.Valid() && req.ticketId != ""
    modifies store
    ensures store.Valid()
    ensures first == second
    ensures first.Success? ==> store.bookings.Keys == old(store.bookings.Keys) + {first.value.ticketId}
    ensures first.Failure? ==> store.bookings == old(store.bookings)
  {
    first := store.SaveBooking(session, req, generatedTicket);
    second := store.SaveBooking(session, req, generatedTicket);
  }

  /**
   * Without a ticket id each save mints its own ticket, so two saves of the
   * same request insert two bookings.
   */
  method SaveTwiceWithoutTicket(store: LedgerStore, session: Session, req: BookingRequest,
                                minted1: string, minted2: string)
    returns (first: Result<Saved, Error>, second: Result<Saved, Error>)
    requires store.Valid() && req.ticketId == ""
    requires minted1 != minted2 && minted1 !in store.bookings && minted2 !in store.bookings
    modifies store
    ensures store.Valid()
    ensures first.Success? <==> second.Success?
    ensures first.Success? ==>
              && first.value.ticketId == minted1 && second.value.ticketId == minted2
              && store.bookings.Keys == old(store.bookings.Keys) + {minted1, minted2}
              && store.nextId == old(store.nextId) + 2
    ensures first.Failure? ==> second == first && store.bookings == old(store.bookings)
  {
    first := store.SaveBooking(session, req, minted1);
    second := store.SaveBooking(session, req, minted2);
  }

  /**
   * Cancelling the same booking twice by internal id: the second call finds
   * it cancelled, and the ledger holds at most the one refund entry of the
   * first call.
   */
  method CancelTwice(store: LedgerStore, session: Session, bookingId: nat)
    returns (first: Result<CancelReceipt, Error>, second: Result<CancelReceipt, Error>)
    requires store.Valid()
    modifies store
    ensures store.Valid()
    ensures first.Success? ==> second == Failure(AlreadyCancelled)
    ensures first.Failure? ==> second == first
    ensures |old(store.payments)| <= |store.payments| <= |old(store.payments)| + 1
  {
    first := store.CancelById(session, bookingId);
    if first.Success? {
      ghost var t := TicketWithId(old(store.bookings), bookingId);
      assert store.bookings[t].id == bookingId && store.bookings[t].cancelled;
      assert TicketWithId(store.bookings, bookingId) == t;
    }
    second := store.CancelById(session, bookingId);
  }
}

=== FILE: wrappers.dfy ===
/** Optional values and success-or-error results shared by every module. */
module Wrappers {

  datatype Option<+T> = None | Some(value: T)

  datatype Result<+T, +E> = Success(value: T) | Failure(error: E)
}
